=== FILE: README.md ===
# Svitlo UA power-outage schedules, modelled in Dafny

This project models the Home Assistant integration's interpretation of
outage-schedule data. The integration reads the Yasno API and the DTEK
KREM site.

**Coordinator (`SvitloDataUpdateCoordinator`).** The model turns a
decoded Yasno reply into the household's list of outage events:

- it finds the daily-schedule component and the region's `today` and
  `tomorrow` sections;
- it converts each interval's hour values (integers, floats or strings)
  into instants;
- it builds one event per complete interval record;
- it keeps the events whose group key selects the household group
  `"main.sub"`, and sorts them by start;
- it dispatches on the region's API type, so that every exception becomes
  an `UpdateFailed`.

**Client (`DtekClient`).** The model covers the steps that interpret the
site's answers:

- the form payload `ajax` posts;
- the GPV queue code taken from a JSON or text reply, including the search
  for `GPV\d+(?:\.\d+)?`;
- the de-duplicated, length-then-text sorted house list;
- the `gpv` request parameter, which is the code with every `"GPV"` removed.

**How Python is represented.** Python's run-time behaviour is spelled out:

- Decoded JSON is the `Json` datatype, and objects keep their key order.
- Exceptions are the `Cause` datatype, and every operation returns a
  `Result`.
- Truthiness, `dict.get`, iteration by `for`, `str()`, `int()`,
  `str.split`, `str.replace`, `in` on strings and string ordering are
  defined in `PyStrings` and `PyValues`.
- The conversion from Kyiv local time to UTC is a function parameter
  `toUtc`. The current date is a parameter `now`. The table mapping
  regions to APIs is a parameter `mapping`.

**String hours.** `_time_to_datetime` calls `int(hour_val)` first, so a
string hour such as `"9,5"` raises there, before the branch that replaces
the comma and calls `float()` is reached. That branch only ever sees
strings `int()` already accepted, and for those it gives back the same
whole hour, for every hour a float holds exactly (floats are modelled as
exact reals, see "## Left out"). So `"9,5"` and `"9.5"` fail the whole refresh, and integer
strings such as `"9"` give whole hours (`HourValue.StringHalfHoursFail`,
`HourValue.StringHour`).

**Modules.** One module per file:

- `Wrappers`: Option and Result.
- `Subsequences`: sequences with elements left out, order kept.
- `PyStrings`: string operations.
- `PyValues`: JSON values and Python's value semantics.
- `Calendar`: dates, the next day and the `datetime` constructor.
- `HourValue`: `_time_to_datetime`.
- `ScheduleDay`: `_parse_schedule_day`.
- `GroupFilter`: the group filter.
- `EventSort`: the stable sort by start.
- `Coordinator`: the Yasno fetch and `_async_update_data`.
- `Client`: client.py.

## Model

| member | source | states |
|---|---|---|
| PyValues.Lookup | custom_components/svitlo_ua/coordinator.py:55 | a key is found exactly when the object has an entry with that key, and the value returned is that entry's value |
| PyValues.Iterate | custom_components/svitlo_ua/coordinator.py:118-119 | a `for` loop runs over lists, strings and dicts and raises for every other value; it visits the list's elements, the string's one-character strings, or the dict's keys, in order |
| PyStrings.Find | custom_components/svitlo_ua/coordinator.py:82 | `pat in s` holds exactly when an occurrence is found; the index found is an occurrence with no earlier one |
| PyStrings.Split | custom_components/svitlo_ua/coordinator.py:75 | `str.split`: at least one part; joining the parts with the separator gives back the string; no part contains the separator; every cut is at the leftmost occurrence, so no part but the last, with the separator put back, holds an earlier occurrence; a single part exactly when the separator does not occur |
| PyStrings.RemoveAllIsConcatOfSplit | custom_components/svitlo_ua/client.py:96 | `s.replace(p, "")` equals `"".join(s.split(p))` |
| PyStrings.RemoveAllWithoutOccurrence | custom_components/svitlo_ua/client.py:96 | a string without the pattern is unchanged by the removal |
| PyStrings.IntLiteralReparses | custom_components/svitlo_ua/coordinator.py:147 | a string that `int()` accepts is read by `float()`, after ',' becomes '.', as the same number |
| PyStrings.IntToString | custom_components/svitlo_ua/coordinator.py:95 | `str(n)` starts with '-' exactly when n is negative, and the rest is the canonical decimal spelling of the magnitude: digits only, no leading '0' unless it is "0", denoting the magnitude |
| PyStrings.ParseIntOfIntToString | custom_components/svitlo_ua/coordinator.py:95 | `int(str(n)) == n` for every integer |
| PyStrings.CanonicalSpellingIsUnique | custom_components/svitlo_ua/coordinator.py:95 | a canonical digit string is the spelling `str()` gives its value |
| PyStrings.IntToStringIsTheCanonicalSpelling | custom_components/svitlo_ua/coordinator.py:95 | every canonical spelling, with '-' before a non-zero magnitude, is `str()` of the number it denotes, so `str(main_group)` is determined |
| PyStrings.DigitRunEnd | custom_components/svitlo_ua/client.py:62 | the end of the maximal run of ASCII digits from a position: everything before it is a digit and the character at it is not |
| PyStrings.LexLessTransitive | custom_components/svitlo_ua/client.py:92 | Python's string `<` is transitive |
| PyStrings.LexLessTotal | custom_components/svitlo_ua/client.py:92 | two distinct strings are ordered one way or the other |
| PyStrings.LexLessIrreflexive | custom_components/svitlo_ua/client.py:92 | no string is less than itself |
| Calendar.NextDay | custom_components/svitlo_ua/coordinator.py:72 | `date + timedelta(days=1)` overflows exactly on 9999-12-31; otherwise it is a valid later date with no valid date between the two |
| Calendar.MakeLocal | custom_components/svitlo_ua/coordinator.py:154-155 | `datetime(...)` succeeds exactly for hour 0..23 and minute 0..59; it raises OverflowError when the hour or minute does not fit a C int, and ValueError otherwise |
| HourValue.Trunc | custom_components/svitlo_ua/coordinator.py:138 | `int()` of a float truncates toward zero: the result lies within one of the value, on the side of zero |
| HourValue.HourAndMinute | custom_components/svitlo_ua/coordinator.py:138-153 | succeeds exactly when `int(v)` does; the hour is `int(v)`; the minute is 30 exactly for a float whose fraction is within 1e-6 of one half, and 0 otherwise |
| HourValue.TimeToInstant | custom_components/svitlo_ua/coordinator.py:136-157 | succeeds exactly when `int(v)` succeeds and lies in 0..23, and then gives the UTC instant of that hour on the date, at minute 30 exactly for a float within 1e-6 of a half hour; otherwise raises the ValueError or TypeError of `int()`, or the ValueError or OverflowError of `datetime()` |
| HourValue.HalfHourFloat | custom_components/svitlo_ua/coordinator.py:140-143 | a float n.5 is n:30 |
| HourValue.HalfHourBand | custom_components/svitlo_ua/coordinator.py:140-143 | every float within 1e-6 of n.5 is n:30 |
| HourValue.OtherFractionRoundsDown | custom_components/svitlo_ua/coordinator.py:140-143 | a float n+f whose fraction f is not one half is n:00 |
| HourValue.QuarterHoursRoundDown | custom_components/svitlo_ua/coordinator.py:140-143 | n.25 and n.75 fall back silently to n:00 |
| HourValue.IntegerHour | custom_components/svitlo_ua/coordinator.py:138-143 | an integer hour is a whole hour |
| HourValue.StringHour | custom_components/svitlo_ua/coordinator.py:138-153 | a string gives the whole hour `int()` reads from it, or fails when `int()` rejects it; it never gives minute 30 |
| HourValue.StringHalfHoursFail | custom_components/svitlo_ua/coordinator.py:138-153 | "9" is 09:00, while "9,5" and "9.5" raise |
| HourValue.NegativeHalfIsMidnight | custom_components/svitlo_ua/coordinator.py:138-143 | -0.5 becomes 00:00, because truncation gives 0 and the fraction -0.5 is not one half |
| HourValue.NegativeFloatIsWholeHour | custom_components/svitlo_ua/coordinator.py:138-143 | a negative float truncates to an hour of at most 0 and is never a half hour |
| HourValue.HourOutsideDayFails | custom_components/svitlo_ua/coordinator.py:154-155 | an hour that `int()` accepts but that lies outside 0..23 raises in `datetime()`: OverflowError beyond a C int, ValueError otherwise |
| HourValue.HugeHourOverflows | custom_components/svitlo_ua/coordinator.py:138-155 | an hour value of 1e10 converts with `int()` but overflows in `datetime()` |
| HourValue.HourTwentyFourFails | custom_components/svitlo_ua/coordinator.py:154-155 | an interval end of 24 or 24.0 raises |
| HourValue.HalfPastOne | custom_components/svitlo_ua/coordinator.py:136-157 | 13.5 on a date is the instant of 13:30 local time on that date |
| ScheduleDay.Bounded | custom_components/svitlo_ua/coordinator.py:120-123 | the records the loop does not skip have both `start` and `end` present and not None, and there are no more of them than records |
| ScheduleDay.BoundedKeepsEveryBoundedRecord | custom_components/svitlo_ua/coordinator.py:120-123 | the records kept form a subsequence of the records, holding every record with both bounds as often as the records do |
| ScheduleDay.BoundedIsUnique | custom_components/svitlo_ua/coordinator.py:120-123 | any subsequence of the records holding only records with both bounds, each as often as the records do, is the one the loop keeps |
| ScheduleDay.Tag | custom_components/svitlo_ua/coordinator.py:118-119 | each interval is paired with the group key it is listed under, in order |
| ScheduleDay.ParseRecords | custom_components/svitlo_ua/coordinator.py:119-133 | the record loop succeeds exactly when every record can be handled |
| ScheduleDay.ParseRecordsEvents | custom_components/svitlo_ua/coordinator.py:119-133 | on success the events correspond one to one, in order, to the records that have both bounds |
| ScheduleDay.ParseRecordsAppend | custom_components/svitlo_ua/coordinator.py:118-133 | running the loop over two runs of records succeeds exactly when each run succeeds, and then gives the two results concatenated |
| ScheduleDay.ParseGroupsIsFlat | custom_components/svitlo_ua/coordinator.py:117-134 | the nested group/interval loops behave as one loop over the flattened records |
| ScheduleDay.ParseScheduleDay | custom_components/svitlo_ua/coordinator.py:114-134 | `_parse_schedule_day` raises only the AttributeError of `.get()`/`.items()` on a non-dict, the TypeError of a `for` over a non-iterable, and the errors of `int()` and `datetime()`; a day info that is not a dict raises at once. Its events and the exact failure condition are given by DayEventsFollowRecords and DayFailsExactly |
| ScheduleDay.DayEventsFollowRecords | custom_components/svitlo_ua/coordinator.py:114-134 | one event per record with both bounds, in group-then-record order. Each event carries its group key, its converted start and end, and its `type` ("OUTAGE" when absent) |
| ScheduleDay.DayFailsExactly | custom_components/svitlo_ua/coordinator.py:114-134 | `_parse_schedule_day` raises exactly when the day info or its groups is not a dict, a group's intervals cannot be iterated, or one record cannot be handled |
| ScheduleDay.MissingEndIsSkipped | custom_components/svitlo_ua/coordinator.py:120-123 | a record without `end` gives no event and no error |
| ScheduleDay.DefaultTypeIsOutage | custom_components/svitlo_ua/coordinator.py:125-133 | a record {start 8, end 9.5} without `type` is an OUTAGE from 08:00 to 09:30 under its group key |
| GroupFilter.ParseTarget | custom_components/svitlo_ua/coordinator.py:75-76 | the main group is `int()` of the text before the first '.', and the call fails when that is not an integer; a subgroup is present exactly when the group has a '.', and it is then the second part of `split('.')`, the text between the first and second '.', which holds no '.' |
| GroupFilter.ParseTargetReadsFirstTwoParts | custom_components/svitlo_ua/coordinator.py:75-76 | any group "a.s" followed by nothing or by a further '.' reads as main `int(a)` (or raises) with subgroup s, whatever comes after the second '.' |
| GroupFilter.ThreePartGroup | custom_components/svitlo_ua/coordinator.py:75-76 | "1.2.3" reads as main 1 with subgroup "2" |
| GroupFilter.ParseTargetReadsGroup | custom_components/svitlo_ua/coordinator.py:75-76 | "m.s" reads as main m with subgroup s, and "m" as main m with no subgroup |
| GroupFilter.KeyVerdict | custom_components/svitlo_ua/coordinator.py:78-104 | the decision for one key raises exactly when splitting on "..." gives more than two parts, and the error is the unpack's ValueError |
| GroupFilter.FilterEvents | custom_components/svitlo_ua/coordinator.py:77-104 | the only exception the filter loop can raise is the ValueError of the range unpack |
| GroupFilter.FilterKeepsSelected | custom_components/svitlo_ua/coordinator.py:77-104 | when the loop finishes, the events kept are a subsequence of the events, every kept event is selected, and the count of kept events is the count of selected ones |
| GroupFilter.FilterFailsExactly | custom_components/svitlo_ua/coordinator.py:82-83 | the filter loop raises exactly when some key holds two range markers |
| Subsequences.SubsequenceMultiset | custom_components/svitlo_ua/coordinator.py:77-104 | what the filter keeps is a sub-multiset of its input |
| GroupFilter.RangeKeySelectsMainInRange | custom_components/svitlo_ua/coordinator.py:82-91 | the key "A...B" selects exactly the targets with A <= main <= B, whatever the subgroup |
| GroupFilter.MalformedRangeIsSkipped | custom_components/svitlo_ua/coordinator.py:84-88 | a range whose bounds are not both integers drops the event without raising |
| GroupFilter.DoubleRangeRaises | custom_components/svitlo_ua/coordinator.py:83 | a key "a...b...c" raises |
| GroupFilter.SevenDotsRaise | custom_components/svitlo_ua/coordinator.py:82-83 | the key "1.......3" splits at the leftmost markers into three parts, so the unpack raises |
| GroupFilter.ExactKeyWithSubgroup | custom_components/svitlo_ua/coordinator.py:94-96 | with a subgroup, the key "m.s" is selected exactly when m is the main group and s the subgroup |
| GroupFilter.ExactKeyWithoutSubgroup | custom_components/svitlo_ua/coordinator.py:97-104 | without a subgroup, "m" and "m.s" are selected exactly when m is the main group |
| GroupFilter.UnparsableMainIsSkipped | custom_components/svitlo_ua/coordinator.py:99-102 | without a subgroup, a key whose main part is not an integer is dropped without raising |
| GroupFilter.EmptyKeyIsSkipped | custom_components/svitlo_ua/coordinator.py:78-80 | an event whose group key is empty is dropped without raising |
| EventSort.InsertByStart | custom_components/svitlo_ua/coordinator.py:106 | inserting into a run sorted by start keeps it sorted and adds exactly that event |
| EventSort.InsertKeepsTies | custom_components/svitlo_ua/coordinator.py:106 | the inserted event goes in front of the events with the same start, and no other tie changes |
| EventSort.SortByStart | custom_components/svitlo_ua/coordinator.py:106 | the result is sorted by start, holds the same events, and keeps events with equal starts in their original order |
| EventSort.StableSortIsUnique | custom_components/svitlo_ua/coordinator.py:106 | two sorted sequences with the same ties at every start are equal |
| EventSort.SortByStartIsTheStableSort | custom_components/svitlo_ua/coordinator.py:106 | a sequence is a stable sort of the events by start exactly when it is `SortByStart` of them |
| Coordinator.FindScheduleComponent | custom_components/svitlo_ua/coordinator.py:53-57 | finds the first component with the daily-schedule template, and every component before it is a dict without that template; otherwise reports that there is none, or raises on the first component that is not a dict |
| Coordinator.FirstScheduleComponent | custom_components/svitlo_ua/coordinator.py:53-57 | the search stops at the first schedule component when every component before it is a dict |
| Coordinator.DaySections | custom_components/svitlo_ua/coordinator.py:52-66 | succeeds exactly when the body is a dict, its `components` can be iterated, the search finds a schedule component, its `dailySchedule` is a dict and the region's entry there is a truthy dict; the result is that entry's `today` and `tomorrow`, each an empty dict when missing; "component not found" exactly when the search finds none; the only errors are AttributeError, TypeError, component not found and region not found |
| Coordinator.DayEvents | custom_components/svitlo_ua/coordinator.py:69-72 | today's events come first. A falsy tomorrow section is never parsed, even if malformed. A truthy one succeeds exactly when today, the next date and tomorrow all succeed, adds tomorrow's events after today's, and otherwise fails with the first of those errors |
| Coordinator.TomorrowAfterLastDateOverflows | custom_components/svitlo_ua/coordinator.py:71-72 | on 9999-12-31 a truthy tomorrow section raises OverflowError |
| Coordinator.NoScheduleComponentFails | custom_components/svitlo_ua/coordinator.py:52-59 | a reply whose components are all dicts without the schedule template fails with "component not found" |
| Coordinator.AbsentRegionFails | custom_components/svitlo_ua/coordinator.py:60-63 | a region code that is absent, null or empty in the daily schedule, or no region code at all, fails with "region not found" |
| Coordinator.RegionSections | custom_components/svitlo_ua/coordinator.py:60-66 | a present region gives its `today` and `tomorrow`, each an empty dict when missing |
| Coordinator.FetchYasnoSchedule | custom_components/svitlo_ua/coordinator.py:43-107 | a status other than 200 fails with that status, and a successful result is sorted by start |
| Coordinator.FetchSelectsAndSorts | custom_components/svitlo_ua/coordinator.py:64-107 | a successful fetch returns, sorted by start and stable among equal starts, exactly the selected events of today followed by tomorrow. It is a sub-multiset of those events, has the count of selected events, and is the only stable sort of them |
| Coordinator.SortedSelection | custom_components/svitlo_ua/coordinator.py:74-106 | filtering then sorting gives a sorted sub-multiset of selected events, with each start's ties a subsequence of the input's |
| Coordinator.FetchFailsAtFirstFailingStage | custom_components/svitlo_ua/coordinator.py:52-107 | the first stage that raises decides the error: the sections, the day events, the group's `int()`, or a key with two range markers; when no stage raises, the fetch succeeds |
| Coordinator.FetchSucceedsExactly | custom_components/svitlo_ua/coordinator.py:52-107 | a 200 reply is fetched successfully exactly when its sections, its day events and the group all parse and no event key holds two range markers |
| Coordinator.AsyncUpdateData | custom_components/svitlo_ua/coordinator.py:24-41 | a "yasno" region gets the fetch's events, and its errors surface as UpdateFailed; "energy_ua" gets no events whatever the reply; any other or unknown region fails with UpdateFailed |
| Client.FormPayload | custom_components/svitlo_ua/client.py:29-32 | the payload keeps the order and number of entries, and each pair is `(str(k), str(v))` |
| Client.FormPayloadKeepsStrings | custom_components/svitlo_ua/client.py:29-32 | string pairs are posted unchanged, so normalising twice changes nothing |
| Client.MappingPostsItsItems | custom_components/svitlo_ua/client.py:29-32 | a mapping is posted exactly as the sequence of its items would be |
| Client.GpvEnd | custom_components/svitlo_ua/client.py:62 | the greedy match starting at a marker followed by a digit covers at least the marker and one digit |
| Client.MatchNeedsGpvAt | custom_components/svitlo_ua/client.py:62 | every match of the pattern begins with "GPV" and a digit |
| Client.GpvEndMatches | custom_components/svitlo_ua/client.py:62 | the greedy end is a match of `GPV\d+(?:\.\d+)?` |
| Client.GpvEndLongest | custom_components/svitlo_ua/client.py:62 | no match from the same start ends later |
| Client.SearchGpv | custom_components/svitlo_ua/client.py:62 | `re.search` finds the first position where a marker followed by a digit starts, or reports that there is none |
| Client.SearchIsLeftmostLongest | custom_components/svitlo_ua/client.py:62-64 | the search succeeds exactly when the text contains a match, and then reports the leftmost start with its longest match |
| Client.Subscript0 | custom_components/svitlo_ua/client.py:59 | `[0]` gives a list's first item and a string's first character, raises KeyError on dicts and TypeError on numbers and booleans |
| Client.ExtractGpv | custom_components/svitlo_ua/client.py:53-65 | only a dict reply can raise, and a reply that is neither a dict nor a string gives None; the dict and string cases are stated by ReasonListCode, ReasonStringCode, NoReasonNoCode, ReasonCodeErrors and TextReplyCode |
| Client.TextReplyCode | custom_components/svitlo_ua/client.py:61-65 | a string reply gives the leftmost-longest match when there is one, and None otherwise |
| Client.ReasonListCode | custom_components/svitlo_ua/client.py:53-59 | a non-empty `data` dict whose first value holds a non-empty `sub_type_reason` list gives `str()` of its first item |
| Client.ReasonStringCode | custom_components/svitlo_ua/client.py:53-59 | a non-empty `data` dict whose first value holds a non-empty `sub_type_reason` string gives that string's first character |
| Client.NoReasonNoCode | custom_components/svitlo_ua/client.py:53-65 | a dict reply gives None when `data` is not a non-empty dict, or when its first value is falsy or a dict without truthy reasons |
| Client.ReasonCodeErrors | custom_components/svitlo_ua/client.py:56-59 | the dict rule raises AttributeError when the truthy first value is not a dict, and, when the truthy reasons are neither a list nor a string, KeyError for a dict and TypeError otherwise |
| Client.HouseNumber | custom_components/svitlo_ua/client.py:89 | `a or b or c`: the first truthy one of `house`, `number` and `value`, or `value` when none of the first two is truthy; truthy exactly when one of the three is |
| Client.CollectHousesExactly | custom_components/svitlo_ua/client.py:83-91 | a string is collected exactly when it is `str()` of the first truthy `house`/`number`/`value` of some dict item in some list-valued top-level entry |
| Client.InsertHouse | custom_components/svitlo_ua/client.py:92 | inserting into a list strictly ordered by (length, text) keeps it strictly ordered and adds exactly that house |
| Client.SortHouses | custom_components/svitlo_ua/client.py:92 | `sorted(set(houses), key=...)` is strictly ordered by (length, text) and holds exactly the given houses |
| Client.FetchHouseList | custom_components/svitlo_ua/client.py:67-92 | a failed request or no house found gives None, and never an empty list; otherwise the list is non-empty, strictly ordered and holds exactly the collected houses |
| Client.OrderedHousesUnique | custom_components/svitlo_ua/client.py:92 | two strictly ordered lists of the same houses are equal |
| Client.HouseListIsTheHouses | custom_components/svitlo_ua/client.py:83-92 | the list holds exactly the houses of the reply, in the only strictly ordered arrangement |
| Client.HouseBeforeTransitive | custom_components/svitlo_ua/client.py:92 | the (length, text) order is transitive |
| Client.HouseBeforeTotal | custom_components/svitlo_ua/client.py:92 | the (length, text) order is total on distinct strings |
| Client.HouseBeforeAsymmetric | custom_components/svitlo_ua/client.py:92 | the (length, text) order is asymmetric |
| Client.StripGpv | custom_components/svitlo_ua/client.py:96 | removing the marker never lengthens the code |
| Client.StripGpvJoinsPieces | custom_components/svitlo_ua/client.py:96 | the parameter is the pieces between the markers, concatenated in order |
| Client.StripGpvWithoutMarker | custom_components/svitlo_ua/client.py:96 | a code without "GPV" is sent unchanged |
| Client.StripExtractedCode | custom_components/svitlo_ua/client.py:96 | a code found by the text rule loses exactly its leading "GPV" |
| Client.StripIsSinglePass | custom_components/svitlo_ua/client.py:96 | one pass over "GGPVPV" leaves "GPV" behind |

## Left out

- HTTP transport is not modelled: the aiohttp sessions, timeouts, `raise_for_status` and `_json_or_text`. The Yasno status check is kept as the `status` of `Response`. Replies are given already decoded, as `Json` or a string.
- The client's request bodies in `fetch_queue_gpv` and `fetch_house_list` are not modelled. They are fixed lists of form fields; only their normalisation by `ajax` is modelled.
- A client error in `fetch_house_list` appears only as a missing reply (`None`).
- Timezone conversion is a parameter: `ZoneInfo("Europe/Kyiv")` and `astimezone(UTC)` are the function `toUtc`, and the tz database and DST are not modelled. `datetime.now` is the date parameter `now`.
- const.py is not part of this model. `REGION_API_MAPPING` is the parameter `mapping`.
- `_fetch_energyua_schedule` is a stub in the source. It is modelled only by its result, an empty event list.
- Floats are exact `real` numbers. NaN and infinities are not represented, and the 1e-6 tolerance is evaluated exactly.
- PyValues.PyStr: `str()` of floats, lists and dicts comes from a `repr` parameter, because Python's float printing is not modelled.
- PyStrings.ParseInt: Python's `int()` also accepts underscores between digits and non-ASCII digits and whitespace. The model accepts only ASCII whitespace, an optional sign and ASCII digits. It also does not model the limit of 4300 digits that Python 3.11 and later put on `int()` of a string: such a string raises there, so a range bound or an hour string that long is read as a number by the model where Python skips the range or fails the refresh.
- PyStrings.IntToString: `str()` of an integer with more than 4300 digits raises in Python 3.11 and later; the model spells every integer. The group number it spells is one `int()` read, and a decoded JSON integer comes from the same conversion, so the difference shows only together with the `int()` limit above.
- PyStrings.ParseDecimal: accepts only the `float()` grammar of a sign, digits and an optional fraction. Only strings that `int()` already accepted reach it.
- Client.SearchGpv: `\d` in Python's `re` also matches non-ASCII decimal digits. The model matches only '0'..'9'.
- Decoded JSON objects are assumed to have distinct keys. `Lookup` returns the first entry with a key.
- The update interval, the coordinator base class, config_flow.py, sensor.py, binary_sensor.py and the setup modules are not modelled. They are scheduling, user interface and platform lifecycle.

=== FILE: calendar.dfy ===
/** Calendar dates as Python's `datetime.date`, and the naive local date-time
    that `datetime(year, month, day, hour, minute, tzinfo=...)` builds. */
module Calendar {
  import opened Wrappers
  import opened PyValues

  datatype Date = Date(year: int, month: int, day: int)

  predicate IsLeapYear(y: int) {
    y % 4 == 0 && (y % 100 != 0 || y % 400 == 0)
  }

  function DaysInMonth(y: int, m: int): int
    requires 1 <= m <= 12
  {
    if m == 2 then (if IsLeapYear(y) then 29 else 28)
    else if m == 4 || m == 6 || m == 9 || m == 11 then 30
    else 31
  }

  /** A date Python can represent: years 1 to 9999. */
  predicate ValidDate(d: Date) {
    1 <= d.year <= 9999 && 1 <= d.month <= 12 && 1 <= d.day <= DaysInMonth(d.year, d.month)
  }

  /** Chronological order of dates. */
  predicate Before(a: Date, b: Date) {
    a.year < b.year
    || (a.year == b.year && a.month < b.month)
    || (a.year == b.year && a.month == b.month && a.day < b.day)
  }

  /** `date.max`. */
  const LastDate := Date(9999, 12, 31)

  /** `d + timedelta(days=1)`: the next calendar day, or OverflowError past
      `date.max`. */
  function NextDay(d: Date): (r: Result<Date, Cause>)
    requires ValidDate(d)
    ensures r.Failure? <==> d == LastDate
    ensures r.Failure? ==> r.error == DateOverflow
    ensures r.Success? ==> ValidDate(r.value) && Before(d, r.value)
    ensures r.Success? ==> forall x :: ValidDate(x) && Before(d, x) ==> !Before(x, r.value)
  {
    if d.day < DaysInMonth(d.year, d.month) then Success(Date(d.year, d.month, d.day + 1))
    else if d.month < 12 then Success(Date(d.year, d.month + 1, 1))
    else if d.year < 9999 then Success(Date(d.year + 1, 1, 1))
    else Failure(DateOverflow)
  }

  /** A point on the UTC time line, as the timezone conversion yields it;
      the core only compares instants. */
  type Instant = int

  /** A wall-clock moment in the Kyiv zone, before conversion to UTC. */
  datatype LocalDateTime = LocalDateTime(date: Date, hour: int, minute: int)

  /** The range of a C `int`, into which `datetime()` first converts each
      of its fields. */
  const CIntMin: int := -0x8000_0000
  const CIntMax: int := 0x7fff_ffff

  predicate FitsCInt(n: int) {
    CIntMin <= n <= CIntMax
  }

  /** `datetime(year, month, day, hour, minute, tzinfo=...)`: OverflowError
      when the hour or the minute does not fit a C `int`, otherwise
      ValueError unless the hour is 0..23 and the minute 0..59. */
  function MakeLocal(date: Date, hour: int, minute: int): (r: Result<LocalDateTime, Cause>)
    requires ValidDate(date)
    ensures r.Success? <==> 0 <= hour < 24 && 0 <= minute < 60
    ensures r.Success? ==> r.value == LocalDateTime(date, hour, minute)
    ensures r.Failure? ==> r.error == (if FitsCInt(hour) && FitsCInt(minute) then TimeOutOfRange else TimeOverflow)
  {
    if !(FitsCInt(hour) && FitsCInt(minute)) then Failure(TimeOverflow)
    else if 0 <= hour < 24 && 0 <= minute < 60 then Success(LocalDateTime(date, hour, minute))
    else Failure(TimeOutOfRange)
  }
}

=== FILE: client.dfy ===
/** `DtekClient`: the interpretation of the site's answers — the form
    payload `ajax` posts, the GPV queue code found in a reply, the house
    list, and the `gpv` parameter of the schedule request. */
module Client {
  import opened Wrappers
  import opened PyStrings
  import opened PyValues

  // ---------------------------------------------------------------------
  // Form payload
  // ---------------------------------------------------------------------

  /** What `ajax` is given: a mapping (its items in order) or a sequence of
      key/value pairs. */
  datatype FormData =
    | FormMapping(entries: seq<(Json, Json)>)
    | FormPairs(pairs: seq<(Json, Json)>)

  /** The key/value pairs in the order `ajax` visits them. */
  function Entries(data: FormData): seq<(Json, Json)> {
    match data
    case FormMapping(entries) => entries
    case FormPairs(pairs) => pairs
  }

  /** The tuple of `(str(k), str(v))` pairs that `ajax` posts. */
  function FormPayload(data: FormData, repr: Json -> string): (r: seq<(string, string)>)
    ensures |r| == |Entries(data)|
    ensures forall i :: 0 <= i < |r| ==>
              r[i] == (PyStr(Entries(data)[i].0, repr), PyStr(Entries(data)[i].1, repr))
  {
    var entries := Entries(data);
    seq(|entries|, i requires 0 <= i < |entries| => (PyStr(entries[i].0, repr), PyStr(entries[i].1, repr)))
  }

  /** String pairs handed to `ajax` as values. */
  function AsForm(p: seq<(string, string)>): (f: seq<(Json, Json)>)
    ensures |f| == |p|
  {
    seq(|p|, i requires 0 <= i < |p| => (JStr(p[i].0), JStr(p[i].1)))
  }

  /** Pairs of strings — what every caller passes — are posted unchanged,
      so normalising a normalised payload changes nothing. */
  lemma FormPayloadKeepsStrings(p: seq<(string, string)>, repr: Json -> string)
    ensures FormPayload(FormPairs(AsForm(p)), repr) == p
    ensures FormPayload(FormMapping(AsForm(p)), repr) == p
  {
  }

  /** A mapping is posted exactly as the sequence of its items would be. */
  lemma MappingPostsItsItems(entries: seq<(Json, Json)>, repr: Json -> string)
    ensures FormPayload(FormMapping(entries), repr) == FormPayload(FormPairs(entries), repr)
  {
  }

  // ---------------------------------------------------------------------
  // The pattern GPV\d+(?:\.\d+)?
  // ---------------------------------------------------------------------

  /** The literal that prefixes every queue code. */
  const GpvMarker := "GPV"

  /** A whole match of `GPV\d+(?:\.\d+)?`: the marker, one or more digits,
      then optionally a '.' and one or more digits. */
  predicate GpvShape(t: string) {
    && |t| >= 4 && t[..3] == GpvMarker
    && (|| AllDigits(t[3..])
        || exists p | 4 <= p < |t| - 1 :: t[p] == '.' && AllDigits(t[3..p]) && AllDigits(t[p + 1..]))
  }

  /** The pattern matches `s[i..e]`. */
  predicate MatchAt(s: string, i: nat, e: nat) {
    i <= e <= |s| && GpvShape(s[i..e])
  }

  /** Some match starts at `i`: the marker followed by a digit. */
  predicate GpvAt(s: string, i: nat) {
    i + 4 <= |s| && s[i..i + 3] == GpvMarker && IsDigit(s[i + 3])
  }

  /** Where the greedy match starting at `i` ends: after the digit run, and
      after a '.' and a second digit run when a digit follows the '.'. */
  function GpvEnd(s: string, i: nat): (e: nat)
    requires GpvAt(s, i)
    ensures i + 4 <= e <= |s|
  {
    var d := DigitRunEnd(s, i + 3);
    if d + 1 < |s| && s[d] == '.' && IsDigit(s[d + 1]) then DigitRunEnd(s, d + 1) else d
  }

  /** Every match starts at a marker followed by a digit. */
  lemma MatchNeedsGpvAt(s: string, i: nat, e: nat)
    requires MatchAt(s, i, e)
    ensures GpvAt(s, i)
  {
    var t := s[i..e];
    assert t[..3] == s[i..i + 3];
    assert t[3..][0] == t[3] == s[i + 3];
    if !AllDigits(t[3..]) {
      var p :| 4 <= p < |t| - 1 && t[p] == '.' && AllDigits(t[3..p]) && AllDigits(t[p + 1..]);
      assert t[3..p][0] == t[3];
    }
  }

  /** The greedy end is a match. */
  lemma GpvEndMatches(s: string, i: nat)
    requires GpvAt(s, i)
    ensures MatchAt(s, i, GpvEnd(s, i))
  {
    var d := DigitRunEnd(s, i + 3);
    var e := GpvEnd(s, i);
    var t := s[i..e];
    assert t[..3] == s[i..i + 3];
    if e == d {
      assert forall k :: 0 <= k < |t[3..]| ==> t[3..][k] == s[i + 3 + k];
    } else {
      var p := d - i;
      assert t[p] == s[d];
      assert forall k :: 0 <= k < |t[3..p]| ==> t[3..p][k] == s[i + 3 + k];
      var tail := t[p + 1..];
      assert |tail| == e - d - 1 && e <= |s|;
      forall k | 0 <= k < |tail|
        ensures tail[k] == s[d + 1 + k]
      {
        assert tail[k] == t[p + 1 + k];
      }
    }
  }

  /** No match starting at `i` runs past the greedy end. */
  lemma GpvEndLongest(s: string, i: nat, e': nat)
    requires GpvAt(s, i) && GpvEnd(s, i) < e' <= |s|
    ensures !MatchAt(s, i, e')
  {
    var d := DigitRunEnd(s, i + 3);
    var e := GpvEnd(s, i);
    var t := s[i..e'];
    assert t[3..][d - i - 3] == s[d];
    forall p | 4 <= p < |t| - 1
      ensures !(t[p] == '.' && AllDigits(t[3..p]) && AllDigits(t[p + 1..]))
    {
      if p < d - i {
        assert t[p] == s[i + p];
      } else if p > d - i {
        assert t[3..p][d - i - 3] == s[d];
      } else if e == d {
        assert t[p] == s[d];
        if s[d] == '.' {
          assert t[p + 1..][0] == s[d + 1];
        }
      } else {
        assert t[p + 1..][e - d - 1] == s[e];
      }
    }
  }

  /** `re.search`: the first position from `from` where a match starts,
      with the end of the greedy match there. */
  function SearchGpv(s: string, from: nat): (r: Option<(nat, nat)>)
    requires from <= |s|
    decreases |s| - from
    ensures r.Some? ==> && from <= r.value.0 && GpvAt(s, r.value.0) && r.value.1 == GpvEnd(s, r.value.0)
                        && forall j :: from <= j < r.value.0 ==> !GpvAt(s, j)
    ensures r.None? ==> forall j :: from <= j <= |s| ==> !GpvAt(s, j)
  {
    if from + 4 > |s| then None
    else if GpvAt(s, from) then Some((from, GpvEnd(s, from)))
    else SearchGpv(s, from + 1)
  }

  /** `s[i..e]` is the match `re.search` reports: it starts leftmost, and
      among the matches starting there it is the one the greedy pattern
      takes, the longest. */
  predicate LeftmostLongest(s: string, i: nat, e: nat) {
    && MatchAt(s, i, e)
    && (forall j, e' :: 0 <= j < i && j <= e' <= |s| ==> !MatchAt(s, j, e'))
    && (forall e' :: e < e' <= |s| ==> !MatchAt(s, i, e'))
  }

  /** The search finds a match exactly when there is one, and then the
      leftmost-longest one. */
  lemma SearchIsLeftmostLongest(s: string)
    ensures SearchGpv(s, 0).Some? <==> exists i, e :: MatchAt(s, i, e)
    ensures SearchGpv(s, 0).Some? ==> LeftmostLongest(s, SearchGpv(s, 0).value.0, SearchGpv(s, 0).value.1)
  {
    forall i, e | MatchAt(s, i, e)
      ensures GpvAt(s, i)
    {
      MatchNeedsGpvAt(s, i, e);
    }
    match SearchGpv(s, 0)
    case None =>
    case Some((i, e)) =>
      GpvEndMatches(s, i);
      forall e' | e < e' <= |s|
        ensures !MatchAt(s, i, e')
      {
        GpvEndLongest(s, i, e');
      }
  }

  // ---------------------------------------------------------------------
  // The queue code in a reply
  // ---------------------------------------------------------------------

  /** `v[0]` for a truthy value: the first item of a list, the first
      character of a string; a dict has no key 0 and a number or boolean
      cannot be indexed. */
  function Subscript0(v: Json): (r: Result<Json, Cause>)
    requires Truthy(v)
    ensures r.Success? <==> v.JList? || v.JStr?
    ensures r.Failure? ==> r.error == (if v.JObj? then MissingKey else NotSubscriptable)
    ensures v.JList? ==> r == Success(v.items[0])
    ensures v.JStr? ==> r == Success(JStr([v.s[0]]))
  {
    match v
    case JList(items) => Success(items[0])
    case JStr(s) => Success(JStr([s[0]]))
    case JObj(_) => Failure(MissingKey)
    case _ => Failure(NotSubscriptable)
  }

  /** The dict rule: `str(sub_type_reason[0])` of the first value of a
      non-empty `data` dict, where a falsy first value reads as `{}`. */
  function ReasonCode(payload: Json, repr: Json -> string): Result<Option<string>, Cause> {
    if !payload.JObj? then Success(None)
    else
      var data := Get(payload.fields, "data");
      if !data.JObj? || |data.fields| == 0 then Success(None)
      else
        var first := data.fields[0].1;
        var holder := if Truthy(first) then first else JObj([]);
        if !holder.JObj? then Failure(NotAMapping)
        else
          var reasons := GetOr(holder.fields, "sub_type_reason", JList([]));
          if !Truthy(reasons) then Success(None)
          else
            var x :- Subscript0(reasons);
            Success(Some(PyStr(x, repr)))
  }

  /** The text rule: the match `re.search` finds in a string reply that
      contains the marker. */
  function TextCode(payload: Json): Option<string> {
    if payload.JStr? && Contains(payload.s, GpvMarker) then
      match SearchGpv(payload.s, 0)
      case Some((i, e)) => Some(payload.s[i..e])
      case None => None
    else None
  }

  /** `fetch_queue_gpv` after the request: the dict rule, then the text
      rule, then None. */
  function ExtractGpv(payload: Json, repr: Json -> string): (r: Result<Option<string>, Cause>)
    ensures r.Failure? ==> payload.JObj?
    ensures !payload.JObj? && !payload.JStr? ==> r == Success(None)
  {
    var code :- ReasonCode(payload, repr);
    if code.Some? then Success(code) else Success(TextCode(payload))
  }

  /** A marker followed by a digit is an occurrence of the marker. */
  lemma GpvAtContains(s: string, i: nat)
    requires GpvAt(s, i)
    ensures Contains(s, GpvMarker)
  {
    assert OccursAt(s, GpvMarker, i);
  }

  /** A string reply gives the leftmost-longest match of the pattern when
      there is one, and None when there is none. */
  lemma TextReplyCode(s: string, repr: Json -> string)
    ensures ExtractGpv(JStr(s), repr).Success?
    ensures ExtractGpv(JStr(s), repr).value.Some? <==> exists i, e :: MatchAt(s, i, e)
    ensures ExtractGpv(JStr(s), repr).value.Some? ==>
              exists i: nat, e: nat :: LeftmostLongest(s, i, e) && ExtractGpv(JStr(s), repr).value.value == s[i..e]
  {
    SearchIsLeftmostLongest(s);
    match SearchGpv(s, 0)
    case None =>
    case Some((i, e)) =>
      GpvAtContains(s, i);
      assert LeftmostLongest(s, i, e);
  }

  /** A dict reply whose `data` is a non-empty dict whose first value holds
      a non-empty `sub_type_reason` list gives the text of its first item. */
  lemma ReasonListCode(fields: seq<(string, Json)>, data: seq<(string, Json)>, holder: seq<(string, Json)>,
                       reasons: seq<Json>, repr: Json -> string)
    requires Get(fields, "data") == JObj(data) && |data| > 0
    requires data[0].1 == JObj(holder) && |holder| > 0
    requires GetOr(holder, "sub_type_reason", JList([])) == JList(reasons) && |reasons| > 0
    ensures ExtractGpv(JObj(fields), repr) == Success(Some(PyStr(reasons[0], repr)))
  {
  }

  /** A dict reply without a usable `data` dict, or whose reasons are
      empty or absent, gives None: the text rule does not apply to dicts. */
  lemma NoReasonNoCode(fields: seq<(string, Json)>, repr: Json -> string)
    requires var data := Get(fields, "data");
             || !data.JObj? || |data.fields| == 0
             || (var first := data.fields[0].1;
                 (!Truthy(first) || (first.JObj? && !Truthy(GetOr(first.fields, "sub_type_reason", JList([]))))))
    ensures ExtractGpv(JObj(fields), repr) == Success(None)
  {
  }

  /** The exceptions of the dict rule: a truthy first value that is not a
      dict, or a truthy `sub_type_reason` that cannot be indexed by 0. */
  lemma ReasonCodeErrors(fields: seq<(string, Json)>, repr: Json -> string)
    requires Get(fields, "data").JObj? && |Get(fields, "data").fields| > 0
    ensures var first := Get(fields, "data").fields[0].1;
            Truthy(first) && !first.JObj? ==> ExtractGpv(JObj(fields), repr) == Failure(NotAMapping)
    ensures var first := Get(fields, "data").fields[0].1;
            first.JObj? && (var reasons := GetOr(first.fields, "sub_type_reason", JList([]));
                            Truthy(reasons) && !reasons.JList? && !reasons.JStr?)
            ==> ExtractGpv(JObj(fields), repr) ==
                  Failure(if GetOr(first.fields, "sub_type_reason", JList([])).JObj? then MissingKey else NotSubscriptable)
  {
  }

  /** A dict reply whose `data` is a non-empty dict whose first value holds
      a non-empty `sub_type_reason` string gives that string's first
      character. */
  lemma ReasonStringCode(fields: seq<(string, Json)>, data: seq<(string, Json)>, holder: seq<(string, Json)>,
                         s: string, repr: Json -> string)
    requires Get(fields, "data") == JObj(data) && |data| > 0
    requires data[0].1 == JObj(holder) && |holder| > 0
    requires GetOr(holder, "sub_type_reason", JList([])) == JStr(s) && |s| > 0
    ensures ExtractGpv(JObj(fields), repr) == Success(Some([s[0]]))
  {
  }

  // ---------------------------------------------------------------------
  // The house list
  // ---------------------------------------------------------------------

  /** `item.get("house") or item.get("number") or item.get("value")`. */
  function HouseNumber(fields: seq<(string, Json)>): (n: Json)
    ensures Truthy(n) ==> n == Get(fields, "house") || n == Get(fields, "number") || n == Get(fields, "value")
    ensures Truthy(n) <==> Truthy(Get(fields, "house")) || Truthy(Get(fields, "number")) || Truthy(Get(fields, "value"))
    ensures Truthy(Get(fields, "house")) ==> n == Get(fields, "house")
    ensures !Truthy(Get(fields, "house")) && Truthy(Get(fields, "number")) ==> n == Get(fields, "number")
    ensures !Truthy(Get(fields, "house")) && !Truthy(Get(fields, "number")) ==> n == Get(fields, "value")
  {
    var house := Get(fields, "house");
    if Truthy(house) then house
    else
      var number := Get(fields, "number");
      if Truthy(number) then number else Get(fields, "value")
  }

  /** The item contributes the house `h`. */
  predicate ItemGives(item: Json, h: string, repr: Json -> string) {
    item.JObj? && Truthy(HouseNumber(item.fields)) && h == PyStr(HouseNumber(item.fields), repr)
  }

  /** The inner loop over the items of one list. */
  function ItemHouses(items: seq<Json>, repr: Json -> string): seq<string> {
    if |items| == 0 then []
    else
      (if items[0].JObj? && Truthy(HouseNumber(items[0].fields)) then [PyStr(HouseNumber(items[0].fields), repr)] else [])
      + ItemHouses(items[1..], repr)
  }

  /** The outer loop over the values of the reply. */
  function ValueHouses(values: seq<(string, Json)>, repr: Json -> string): seq<string> {
    if |values| == 0 then []
    else (if values[0].1.JList? then ItemHouses(values[0].1.items, repr) else []) + ValueHouses(values[1..], repr)
  }

  /** Every house the reply's loops append, in order: for each list value
      of a dict reply, the house of each dict item that has one. */
  function CollectHouses(payload: Json, repr: Json -> string): seq<string> {
    if payload.JObj? then ValueHouses(payload.fields, repr) else []
  }

  /** `h` is the house of some dict item of some list-valued entry. */
  predicate HouseOf(payload: Json, h: string, repr: Json -> string) {
    && payload.JObj?
    && exists v, j :: && 0 <= v < |payload.fields| && payload.fields[v].1.JList?
                      && 0 <= j < |payload.fields[v].1.items| && ItemGives(payload.fields[v].1.items[j], h, repr)
  }

  lemma {:induction false} ItemHousesMembers(items: seq<Json>, h: string, repr: Json -> string)
    ensures h in ItemHouses(items, repr) <==> exists j :: 0 <= j < |items| && ItemGives(items[j], h, repr)
    decreases |items|
  {
    if |items| > 0 {
      ItemHousesMembers(items[1..], h, repr);
      assert forall j :: 0 < j < |items| ==> items[j] == items[1..][j - 1];
    }
  }

  lemma {:induction false} ValueHousesMembers(values: seq<(string, Json)>, h: string, repr: Json -> string)
    ensures h in ValueHouses(values, repr) <==>
            exists v, j :: && 0 <= v < |values| && values[v].1.JList?
                           && 0 <= j < |values[v].1.items| && ItemGives(values[v].1.items[j], h, repr)
    decreases |values|
  {
    if |values| > 0 {
      ValueHousesMembers(values[1..], h, repr);
      assert forall v :: 0 < v < |values| ==> values[v] == values[1..][v - 1];
      if values[0].1.JList? {
        ItemHousesMembers(values[0].1.items, h, repr);
      }
    }
  }

  /** The collected houses are exactly the houses of the reply. */
  lemma CollectHousesExactly(payload: Json, h: string, repr: Json -> string)
    ensures h in CollectHouses(payload, repr) <==> HouseOf(payload, h, repr)
  {
    if payload.JObj? {
      ValueHousesMembers(payload.fields, h, repr);
    }
  }

  /** The sort key `(len(x), x)`: shorter first, then Python's string order. */
  predicate HouseBefore(a: string, b: string) {
    |a| < |b| || (|a| == |b| && LexLess(a, b))
  }

  lemma HouseBeforeTransitive(a: string, b: string, c: string)
    requires HouseBefore(a, b) && HouseBefore(b, c)
    ensures HouseBefore(a, c)
  {
    if |a| == |b| == |c| {
      LexLessTransitive(a, b, c);
    }
  }

  lemma HouseBeforeTotal(a: string, b: string)
    requires a != b
    ensures HouseBefore(a, b) || HouseBefore(b, a)
  {
    if |a| == |b| {
      LexLessTotal(a, b);
    }
  }

  lemma HouseBeforeAsymmetric(a: string, b: string)
    ensures HouseBefore(a, b) ==> !HouseBefore(b, a)
  {
    LexLessAsymmetric(a, b);
  }

  lemma {:induction false} LexLessAsymmetric(a: string, b: string)
    ensures LexLess(a, b) ==> !LexLess(b, a)
    decreases |a|
  {
    if |a| > 0 && |b| > 0 && a[0] == b[0] {
      LexLessAsymmetric(a[1..], b[1..]);
    }
  }

  /** Strictly increasing by the sort key, hence free of duplicates. */
  predicate StrictlyOrdered(xs: seq<string>) {
    forall i, j :: 0 <= i < j < |xs| ==> HouseBefore(xs[i], xs[j])
  }

  /** Every element of `xs` sorts after `b`. */
  predicate AllAfter(xs: seq<string>, b: string) {
    forall i :: 0 <= i < |xs| ==> HouseBefore(b, xs[i])
  }

  lemma OrderedCons(x: string, ys: seq<string>)
    requires StrictlyOrdered(ys) && AllAfter(ys, x)
    ensures StrictlyOrdered([x] + ys)
  {
    var r := [x] + ys;
    forall i, j | 0 <= i < j < |r|
      ensures HouseBefore(r[i], r[j])
    {
      assert r[j] == ys[j - 1];
      if i > 0 {
        assert r[i] == ys[i - 1];
      }
    }
  }

  lemma OrderedTail(xs: seq<string>)
    requires StrictlyOrdered(xs) && |xs| > 0
    ensures StrictlyOrdered(xs[1..]) && AllAfter(xs[1..], xs[0])
  {
    forall i | 0 <= i < |xs| - 1
      ensures HouseBefore(xs[0], xs[1..][i])
    {
      assert xs[1..][i] == xs[i + 1];
    }
  }

  /** Putting `h` in front of an ordered list that starts after it. */
  lemma InsertHouseAtFront(h: string, xs: seq<string>)
    requires StrictlyOrdered(xs) && (|xs| == 0 || HouseBefore(h, xs[0]))
    ensures StrictlyOrdered([h] + xs)
    ensures forall b :: AllAfter(xs, b) && HouseBefore(b, h) ==> AllAfter([h] + xs, b)
  {
    var r := [h] + xs;
    assert forall i :: 0 < i < |r| ==> r[i] == xs[i - 1];
    if |xs| > 0 {
      OrderedTail(xs);
      forall i | 0 <= i < |xs|
        ensures HouseBefore(h, xs[i])
      {
        if i > 0 {
          assert xs[i] == xs[1..][i - 1];
          HouseBeforeTransitive(h, xs[0], xs[i]);
        }
      }
    }
    OrderedCons(h, xs);
  }

  /** `h` added to an ordered list of distinct houses, unless present. */
  function InsertHouse(h: string, xs: seq<string>): (r: seq<string>)
    requires StrictlyOrdered(xs)
    ensures StrictlyOrdered(r)
    ensures forall x :: x in r <==> x in xs || x == h
    ensures forall b :: AllAfter(xs, b) && HouseBefore(b, h) ==> AllAfter(r, b)
  {
    if |xs| == 0 || HouseBefore(h, xs[0]) then
      InsertHouseAtFront(h, xs);
      [h] + xs
    else if h == xs[0] then
      xs
    else
      HouseBeforeTotal(h, xs[0]);
      OrderedTail(xs);
      var rest := InsertHouse(h, xs[1..]);
      var r := [xs[0]] + rest;
      assert xs == [xs[0]] + xs[1..];
      OrderedCons(xs[0], rest);
      assert forall b :: AllAfter(xs, b) && HouseBefore(b, h) ==> AllAfter(r, b) by {
        forall b | AllAfter(xs, b) && HouseBefore(b, h)
          ensures AllAfter(r, b)
        {
          assert AllAfter(xs[1..], b) by {
            assert forall i :: 0 <= i < |xs| - 1 ==> xs[1..][i] == xs[i + 1];
          }
          assert forall i :: 0 < i < |r| ==> r[i] == rest[i - 1];
        }
      }
      r
  }

  /** `sorted(set(houses), key=lambda x: (len(x), x))`. */
  function SortHouses(hs: seq<string>): (r: seq<string>)
    ensures StrictlyOrdered(r)
    ensures forall x :: x in r <==> x in hs
  {
    if |hs| == 0 then []
    else
      assert hs == [hs[0]] + hs[1..];
      InsertHouse(hs[0], SortHouses(hs[1..]))
  }

  /** `fetch_house_list` after the request: `reply` is None when the
      request raised a client error. The list is None exactly when no
      house was found; otherwise it holds each found house once, ordered
      by length and then text. */
  function FetchHouseList(reply: Option<Json>, repr: Json -> string): (r: Option<seq<string>>)
    ensures reply.None? ==> r.None?
    ensures reply.Some? ==> (r.None? <==> |CollectHouses(reply.value, repr)| == 0)
    ensures r.Some? ==> |r.value| > 0 && StrictlyOrdered(r.value)
    ensures r.Some? ==> forall h :: h in r.value <==> h in CollectHouses(reply.value, repr)
  {
    if reply.None? then None
    else
      var houses := CollectHouses(reply.value, repr);
      if |houses| == 0 then None
      else
        var r := SortHouses(houses);
        assert houses[0] in r;
        Some(r)
  }

  /** The first house of an ordered list sorts before every other one. */
  lemma FirstIsLeast(xs: seq<string>, x: string)
    requires StrictlyOrdered(xs) && x in xs
    ensures x == xs[0] || HouseBefore(xs[0], x)
  {
  }

  /** Two ordered lists of the same houses are equal: the house list is
      the only ordered, duplicate-free arrangement of the found houses. */
  lemma {:induction false} OrderedHousesUnique(a: seq<string>, b: seq<string>)
    requires StrictlyOrdered(a) && StrictlyOrdered(b)
    requires forall x :: x in a <==> x in b
    ensures a == b
    decreases |a|
  {
    assert |a| == 0 ==> |b| == 0 by {
      if |b| > 0 {
        assert b[0] in b;
      }
    }
    if |a| > 0 {
      assert a[0] in b && b[0] in a;
      FirstIsLeast(a, b[0]);
      FirstIsLeast(b, a[0]);
      HouseBeforeAsymmetric(a[0], b[0]);
      assert a[0] == b[0];
      OrderedTail(a);
      OrderedTail(b);
      forall x
        ensures x in a[1..] <==> x in b[1..]
      {
        assert x in a <==> x == a[0] || x in a[1..] by {
          assert a == [a[0]] + a[1..];
        }
        assert x in b <==> x == b[0] || x in b[1..] by {
          assert b == [b[0]] + b[1..];
        }
        if x in a[1..] {
          var k :| 0 <= k < |a[1..]| && a[1..][k] == x;
          assert HouseBefore(a[0], x);
          HouseBeforeAsymmetric(a[0], a[0]);
        }
        if x in b[1..] {
          var k :| 0 <= k < |b[1..]| && b[1..][k] == x;
          assert HouseBefore(b[0], x);
          HouseBeforeAsymmetric(b[0], b[0]);
        }
      }
      OrderedHousesUnique(a[1..], b[1..]);
      assert a == [a[0]] + a[1..] && b == [b[0]] + b[1..];
    }
  }

  /** The house list holds exactly the houses of the reply, in the one
      order the sort key allows. */
  lemma HouseListIsTheHouses(payload: Json, repr: Json -> string, ys: seq<string>)
    requires FetchHouseList(Some(payload), repr).Some?
    ensures forall h :: h in FetchHouseList(Some(payload), repr).value <==> HouseOf(payload, h, repr)
    ensures StrictlyOrdered(ys) && (forall h :: h in ys <==> HouseOf(payload, h, repr))
            ==> ys == FetchHouseList(Some(payload), repr).value
  {
    forall h
      ensures h in CollectHouses(payload, repr) <==> HouseOf(payload, h, repr)
    {
      CollectHousesExactly(payload, h, repr);
    }
    if StrictlyOrdered(ys) && (forall h :: h in ys <==> HouseOf(payload, h, repr)) {
      OrderedHousesUnique(ys, FetchHouseList(Some(payload), repr).value);
    }
  }

  // ---------------------------------------------------------------------
  // The gpv request parameter
  // ---------------------------------------------------------------------

  /** `gpv_code.replace("GPV", "")`. */
  function StripGpv(code: string): (r: string)
    ensures |r| <= |code|
  {
    RemoveAll(code, GpvMarker)
  }

  /** Python's `replace` removal as `"".join(code.split("GPV"))`: the pieces
      between the markers, in order. */
  lemma StripGpvJoinsPieces(code: string)
    ensures StripGpv(code) == Concat(Split(code, GpvMarker))
  {
    RemoveAllIsConcatOfSplit(code, GpvMarker);
  }

  /** A code without the marker is sent unchanged. */
  lemma StripGpvWithoutMarker(code: string)
    requires !Contains(code, GpvMarker)
    ensures StripGpv(code) == code
  {
    RemoveAllWithoutOccurrence(code, GpvMarker);
  }

  /** A code found by the text rule loses exactly its marker: the
      parameter is its number, digits with at most one '.'. */
  lemma StripExtractedCode(t: string)
    requires GpvShape(t)
    ensures StripGpv(t) == t[3..]
  {
    assert OccursAt(t, GpvMarker, 0) by {
      assert t[0..3] == t[..3];
    }
    RemoveAllUpTo(t, GpvMarker, 0);
    var rest := t[3..];
    assert forall k :: 0 <= k < |rest| ==> rest[k] != 'G' by {
      if !AllDigits(rest) {
        var p :| 4 <= p < |t| - 1 && t[p] == '.' && AllDigits(t[3..p]) && AllDigits(t[p + 1..]);
        forall k | 0 <= k < |rest|
          ensures rest[k] != 'G'
        {
          if k < p - 3 {
            assert rest[k] == t[3..p][k];
          } else if k > p - 3 {
            assert rest[k] == t[p + 1..][k - p + 2];
          }
        }
      }
    }
    forall j | 0 <= j <= |rest|
      ensures !OccursAt(rest, GpvMarker, j)
    {
      if j + 3 <= |rest| {
        assert rest[j..j + 3][0] == rest[j];
      }
    }
    RemoveAllWithoutOccurrence(rest, GpvMarker);
    assert t[..0] == [];
  }

  /** One left-to-right pass: removing the inner marker of "GGPVPV" leaves
      a marker behind. */
  lemma StripIsSinglePass()
    ensures StripGpv("GGPVPV") == GpvMarker
  {
    var s := "GGPVPV";
    assert s[..3][1] != GpvMarker[1];
    assert s[1..][..3] == GpvMarker;
    assert s[1..][3..] == "PV";
    assert RemoveAll("PV", GpvMarker) == "PV";
    assert RemoveAll(s[1..], GpvMarker) == "PV";
    assert [s[0]] + "PV" == GpvMarker;
  }
}

=== FILE: coordinator.dfy ===
/** `SvitloDataUpdateCoordinator`: locating the day sections in the Yasno
    reply, assembling today's and tomorrow's events, selecting the
    household's group, sorting, and the dispatch on the region's API. */
module Coordinator {
  import opened Wrappers
  import opened PyValues
  import opened Calendar
  import opened ScheduleDay
  import opened GroupFilter
  import opened EventSort
  import opened Subsequences

  /** The `template_name` of the component that carries the schedules. */
  const ScheduleTemplate := "electricity-outages-daily-schedule"

  /** The reply of the schedule endpoint: its status and its decoded body. */
  datatype Response = Response(status: int, body: Json)

  /** A component the search stops at. */
  predicate IsScheduleComponent(c: Json) {
    c.JObj? && Get(c.fields, "template_name") == JStr(ScheduleTemplate)
  }

  /** The `for comp in components` search from position `from`: the index
      of the first schedule component, None when there is none, or the
      AttributeError of `.get()` on a component that is not a dict. */
  function FindScheduleComponent(comps: seq<Json>, from: nat): (r: Result<Option<nat>, Cause>)
    requires from <= |comps|
    ensures r.Success? && r.value.Some? ==>
              && from <= r.value.value < |comps|
              && IsScheduleComponent(comps[r.value.value])
              && forall j :: from <= j < r.value.value ==> comps[j].JObj? && !IsScheduleComponent(comps[j])
    ensures r.Success? && r.value.None? ==>
              forall j :: from <= j < |comps| ==> comps[j].JObj? && !IsScheduleComponent(comps[j])
    ensures r.Failure? ==> r.error == NotAMapping
    ensures r.Failure? ==> exists j :: from <= j < |comps| && !comps[j].JObj?
                                       && forall i :: from <= i < j ==> !IsScheduleComponent(comps[i])
    decreases |comps| - from
  {
    if from == |comps| then Success(None)
    else if !comps[from].JObj? then Failure(NotAMapping)
    else if IsScheduleComponent(comps[from]) then Success(Some(from))
    else FindScheduleComponent(comps, from + 1)
  }

  /** The `today` and `tomorrow` sections of the region, after the
      component, `dailySchedule` and region checks: each missing section
      reads as an empty dict. */
  function DaySections(result: Json, regionCode: Option<string>): (r: Result<(Json, Json), Cause>)
    ensures r.Success? <==>
              && result.JObj?
              && var comps := Iterate(GetOr(result.fields, "components", JList([])));
                 && comps.Some?
                 && var found := FindScheduleComponent(comps.value, 0);
                    && found.Success? && found.value.Some?
                    && var daily := GetOr(comps.value[found.value.value].fields, "dailySchedule", JObj([]));
                       && daily.JObj?
                       && var region := if regionCode.Some? then Get(daily.fields, regionCode.value) else JNull;
                          Truthy(region) && region.JObj?
    ensures r.Success? ==>
              var comps := Iterate(GetOr(result.fields, "components", JList([]))).value;
              var found := FindScheduleComponent(comps, 0).value.value;
              var daily := GetOr(comps[found].fields, "dailySchedule", JObj([]));
              var region := Get(daily.fields, regionCode.value);
              r.value == (GetOr(region.fields, "today", JObj([])), GetOr(region.fields, "tomorrow", JObj([])))
    ensures r.Failure? ==> r.error in {NotAMapping, NotIterable, ComponentNotFound, RegionNotFound}
    ensures !result.JObj? ==> r == Failure(NotAMapping)
    ensures r == Failure(ComponentNotFound) <==>
              && result.JObj?
              && Iterate(GetOr(result.fields, "components", JList([]))).Some?
              && FindScheduleComponent(Iterate(GetOr(result.fields, "components", JList([]))).value, 0) == Success(None)
  {
    if !result.JObj? then Failure(NotAMapping)
    else
      var comps :- Iterate(GetOr(result.fields, "components", JList([]))).ToResult(NotIterable);
      var found :- FindScheduleComponent(comps, 0);
      if found.None? then Failure(ComponentNotFound)
      else
        var daily := GetOr(comps[found.value].fields, "dailySchedule", JObj([]));
        if !daily.JObj? then Failure(NotAMapping)
        else
          var regionData := if regionCode.Some? then Get(daily.fields, regionCode.value) else JNull;
          if !Truthy(regionData) then Failure(RegionNotFound)
          else if !regionData.JObj? then Failure(NotAMapping)
          else Success((GetOr(regionData.fields, "today", JObj([])), GetOr(regionData.fields, "tomorrow", JObj([]))))
  }

  /** Today's events, then — only when the tomorrow section is truthy —
      tomorrow's, dated the following day. */
  function DayEvents(today: Json, tomorrow: Json, now: Date, toUtc: LocalDateTime -> Instant): (r: Result<seq<Event>, Cause>)
    requires ValidDate(now)
    ensures r.Success? ==> ParseScheduleDay(today, now, toUtc).Success?
                           && ParseScheduleDay(today, now, toUtc).value <= r.value
    ensures !Truthy(tomorrow) ==> r == ParseScheduleDay(today, now, toUtc)
    ensures Truthy(tomorrow) && r.Success? ==>
              && NextDay(now).Success?
              && ParseScheduleDay(tomorrow, NextDay(now).value, toUtc).Success?
              && r.value == ParseScheduleDay(today, now, toUtc).value + ParseScheduleDay(tomorrow, NextDay(now).value, toUtc).value
    ensures Truthy(tomorrow) ==>
              (r.Success? <==> && ParseScheduleDay(today, now, toUtc).Success?
                               && NextDay(now).Success?
                               && ParseScheduleDay(tomorrow, NextDay(now).value, toUtc).Success?)
    ensures Truthy(tomorrow) && r.Failure? ==>
              r.error == (if ParseScheduleDay(today, now, toUtc).Failure? then ParseScheduleDay(today, now, toUtc).error
                          else if NextDay(now).Failure? then DateOverflow
                          else ParseScheduleDay(tomorrow, NextDay(now).value, toUtc).error)
  {
    var todayEvents :- ParseScheduleDay(today, now, toUtc);
    if !Truthy(tomorrow) then Success(todayEvents)
    else
      var next :- NextDay(now);
      var tomorrowEvents :- ParseScheduleDay(tomorrow, next, toUtc);
      Success(todayEvents + tomorrowEvents)
  }

  /** `_fetch_yasno_schedule`, given the endpoint's reply, the clock's
      date and the Kyiv-to-UTC conversion. */
  function FetchYasnoSchedule(resp: Response, regionCode: Option<string>, group: string, now: Date,
                              toUtc: LocalDateTime -> Instant): (r: Result<seq<Event>, Cause>)
    requires ValidDate(now)
    ensures resp.status != 200 ==> r == Failure(HttpStatus(resp.status))
    ensures r.Success? ==> SortedByStart(r.value)
  {
    if resp.status != 200 then Failure(HttpStatus(resp.status))
    else
      var sections :- DaySections(resp.body, regionCode);
      var events :- DayEvents(sections.0, sections.1, now, toUtc);
      var target :- ParseTarget(group);
      var kept :- FilterEvents(events, target);
      Success(SortByStart(kept))
  }

  /** An entry of the region table: the API that serves it and its code. */
  datatype RegionEntry = RegionEntry(api: Option<string>, regionCode: Option<string>)

  /** The exception the coordinator reports to Home Assistant. */
  datatype UpdateError = UpdateFailed(cause: Cause)

  /** `_async_update_data`: dispatch on the region's API; every exception
      surfaces as UpdateFailed. */
  function AsyncUpdateData(mapping: map<string, RegionEntry>, region: string, resp: Response, group: string,
                           now: Date, toUtc: LocalDateTime -> Instant): (r: Result<seq<Event>, UpdateError>)
    requires ValidDate(now)
    ensures var entry := if region in mapping then mapping[region] else RegionEntry(None, None);
            && (entry.api == Some("yasno") ==>
                  && (r.Success? <==> FetchYasnoSchedule(resp, entry.regionCode, group, now, toUtc).Success?)
                  && (r.Success? ==> r.value == FetchYasnoSchedule(resp, entry.regionCode, group, now, toUtc).value)
                  && (r.Failure? ==> r.error == UpdateFailed(FetchYasnoSchedule(resp, entry.regionCode, group, now, toUtc).error)))
            && (entry.api == Some("energy_ua") ==> r == Success([]))
            && (entry.api != Some("yasno") && entry.api != Some("energy_ua") ==> r == Failure(UpdateFailed(UnknownRegion)))
  {
    var entry := if region in mapping then mapping[region] else RegionEntry(None, None);
    if entry.api == Some("yasno") then
      match FetchYasnoSchedule(resp, entry.regionCode, group, now, toUtc)
      case Success(events) => Success(events)
      case Failure(cause) => Failure(UpdateFailed(cause))
    else if entry.api == Some("energy_ua") then Success([])
    else Failure(UpdateFailed(UnknownRegion))
  }

  /** Taking the ties of one start commutes with taking a subsequence. */
  lemma {:induction false} SubsequenceWithStart(a: seq<Event>, b: seq<Event>, k: Instant)
    requires IsSubsequence(a, b)
    ensures IsSubsequence(WithStart(a, k), WithStart(b, k))
    decreases |b|
  {
    if |a| > 0 {
      if a[0] == b[0] && IsSubsequence(a[1..], b[1..]) {
        SubsequenceWithStart(a[1..], b[1..], k);
        if a[0].start == k {
          var wa := WithStart(a, k);
          var wb := WithStart(b, k);
          assert wa == [a[0]] + WithStart(a[1..], k);
          assert wb == [b[0]] + WithStart(b[1..], k);
          assert wa[1..] == WithStart(a[1..], k) && wb[1..] == WithStart(b[1..], k);
          assert wa[0] == wb[0];
        } else {
          assert WithStart(a, k) == WithStart(a[1..], k);
          assert WithStart(b, k) == WithStart(b[1..], k);
        }
      } else {
        SubsequenceWithStart(a, b[1..], k);
        if b[0].start == k {
          var wb := WithStart(b, k);
          assert wb == [b[0]] + WithStart(b[1..], k);
          assert wb[1..] == WithStart(b[1..], k);
        } else {
          assert WithStart(b, k) == WithStart(b[1..], k);
        }
      }
    }
  }

  /** What a successful fetch returns: the events of the day sections that
      the household's group selects — each at most as often as it occurs,
      all of them counted — sorted by start, with events of equal start in
      their original order; it is the only sequence with these properties. */
  lemma FetchSelectsAndSorts(resp: Response, regionCode: Option<string>, group: string, now: Date,
                             toUtc: LocalDateTime -> Instant)
    requires ValidDate(now)
    requires FetchYasnoSchedule(resp, regionCode, group, now, toUtc).Success?
    ensures resp.status == 200 && DaySections(resp.body, regionCode).Success?
    ensures var s := DaySections(resp.body, regionCode).value;
            DayEvents(s.0, s.1, now, toUtc).Success? && ParseTarget(group).Success?
    ensures var s := DaySections(resp.body, regionCode).value;
            var evs := DayEvents(s.0, s.1, now, toUtc).value;
            var t := ParseTarget(group).value;
            var r := FetchYasnoSchedule(resp, regionCode, group, now, toUtc).value;
            && SortedByStart(r)
            && multiset(r) <= multiset(evs)
            && (forall i :: 0 <= i < |r| ==> Selected(r[i].groupKey, t))
            && |r| == CountSelected(evs, t)
            && (forall k :: IsSubsequence(WithStart(r, k), WithStart(evs, k)))
            && FilterEvents(evs, t).Success?
            && (forall ys :: StableSortOf(ys, FilterEvents(evs, t).value) <==> ys == r)
  {
    var s := DaySections(resp.body, regionCode).value;
    var evs := DayEvents(s.0, s.1, now, toUtc).value;
    var t := ParseTarget(group).value;
    var kept := FilterEvents(evs, t).value;
    assert FetchYasnoSchedule(resp, regionCode, group, now, toUtc).value == SortByStart(kept);
    SortedSelection(evs, t);
  }

  /** The selection and sort steps of the fetch on a run of events. */
  lemma SortedSelection(evs: seq<Event>, t: Target)
    requires FilterEvents(evs, t).Success?
    ensures var kept := FilterEvents(evs, t).value;
            var r := SortByStart(kept);
            && SortedByStart(r)
            && multiset(r) <= multiset(evs)
            && (forall i :: 0 <= i < |r| ==> Selected(r[i].groupKey, t))
            && |r| == CountSelected(evs, t)
            && (forall k :: IsSubsequence(WithStart(r, k), WithStart(evs, k)))
            && (forall ys :: StableSortOf(ys, kept) <==> ys == r)
  {
    var kept := FilterEvents(evs, t).value;
    var r := SortByStart(kept);
    FilterKeepsSelected(evs, t);
    SubsequenceMultiset(kept, evs);
    assert |r| == |kept| by {
      assert |multiset(r)| == |multiset(kept)|;
    }
    forall i | 0 <= i < |r|
      ensures Selected(r[i].groupKey, t)
    {
      assert r[i] in multiset(kept);
      var j :| 0 <= j < |kept| && kept[j] == r[i];
    }
    forall k
      ensures IsSubsequence(WithStart(r, k), WithStart(evs, k))
    {
      SubsequenceWithStart(kept, evs, k);
    }
    forall ys
      ensures StableSortOf(ys, kept) <==> ys == r
    {
      SortByStartIsTheStableSort(kept, ys);
    }
  }

  /** The first stage that raises decides the fetch's failure: the reply's
      sections, then the day events, then the group, then a key with two
      range markers among the events; when no stage raises, the fetch
      succeeds. */
  lemma FetchFailsAtFirstFailingStage(resp: Response, regionCode: Option<string>, group: string, now: Date,
                                      toUtc: LocalDateTime -> Instant)
    requires ValidDate(now) && resp.status == 200
    ensures DaySections(resp.body, regionCode).Failure? ==>
              FetchYasnoSchedule(resp, regionCode, group, now, toUtc) == Failure(DaySections(resp.body, regionCode).error)
    ensures DaySections(resp.body, regionCode).Success? ==>
              var s := DaySections(resp.body, regionCode).value;
              && (DayEvents(s.0, s.1, now, toUtc).Failure? ==>
                    FetchYasnoSchedule(resp, regionCode, group, now, toUtc) == Failure(DayEvents(s.0, s.1, now, toUtc).error))
              && (DayEvents(s.0, s.1, now, toUtc).Success? && ParseTarget(group).Failure? ==>
                    FetchYasnoSchedule(resp, regionCode, group, now, toUtc) == Failure(IntConversion))
              && (DayEvents(s.0, s.1, now, toUtc).Success? && ParseTarget(group).Success?
                  && (exists i :: 0 <= i < |DayEvents(s.0, s.1, now, toUtc).value|
                                  && TooManyRanges(DayEvents(s.0, s.1, now, toUtc).value[i].groupKey)) ==>
                    FetchYasnoSchedule(resp, regionCode, group, now, toUtc) == Failure(TooManyRangeParts))
              && (DayEvents(s.0, s.1, now, toUtc).Success? && ParseTarget(group).Success?
                  && (forall i :: 0 <= i < |DayEvents(s.0, s.1, now, toUtc).value| ==>
                                  !TooManyRanges(DayEvents(s.0, s.1, now, toUtc).value[i].groupKey)) ==>
                    FetchYasnoSchedule(resp, regionCode, group, now, toUtc).Success?)
  {
    if DaySections(resp.body, regionCode).Success? {
      var s := DaySections(resp.body, regionCode).value;
      if DayEvents(s.0, s.1, now, toUtc).Success? && ParseTarget(group).Success? {
        FilterFailsExactly(DayEvents(s.0, s.1, now, toUtc).value, ParseTarget(group).value);
      }
    }
  }

  /** The fetch of a 200 reply succeeds exactly when its sections, its day
      events and the group all parse and no event key holds two range
      markers. */
  lemma FetchSucceedsExactly(resp: Response, regionCode: Option<string>, group: string, now: Date,
                             toUtc: LocalDateTime -> Instant)
    requires ValidDate(now) && resp.status == 200
    ensures FetchYasnoSchedule(resp, regionCode, group, now, toUtc).Success? <==>
              && DaySections(resp.body, regionCode).Success?
              && var s := DaySections(resp.body, regionCode).value;
                 && DayEvents(s.0, s.1, now, toUtc).Success?
                 && ParseTarget(group).Success?
                 && forall i :: 0 <= i < |DayEvents(s.0, s.1, now, toUtc).value| ==>
                      !TooManyRanges(DayEvents(s.0, s.1, now, toUtc).value[i].groupKey)
  {
    if DaySections(resp.body, regionCode).Success? {
      var s := DaySections(resp.body, regionCode).value;
      if DayEvents(s.0, s.1, now, toUtc).Success? && ParseTarget(group).Success? {
        FilterFailsExactly(DayEvents(s.0, s.1, now, toUtc).value, ParseTarget(group).value);
      }
    }
  }

  /** A reply whose components are all dicts without the schedule
      template fails with "component not found", whatever the region. */
  lemma NoScheduleComponentFails(fields: seq<(string, Json)>, comps: seq<Json>, regionCode: Option<string>)
    requires GetOr(fields, "components", JList([])) == JList(comps)
    requires forall j :: 0 <= j < |comps| ==> comps[j].JObj? && !IsScheduleComponent(comps[j])
    ensures DaySections(JObj(fields), regionCode) == Failure(ComponentNotFound)
  {
    assert FindScheduleComponent(comps, 0) == Success(None);
  }

  /** With the schedule component found and its daily schedule a dict, a
      region that is absent, null or empty there — or no region code at
      all — fails with "region not found". */
  lemma AbsentRegionFails(fields: seq<(string, Json)>, comps: seq<Json>, i: nat, regionCode: Option<string>)
    requires GetOr(fields, "components", JList([])) == JList(comps)
    requires i < |comps| && IsScheduleComponent(comps[i])
    requires forall j :: 0 <= j < i ==> comps[j].JObj? && !IsScheduleComponent(comps[j])
    requires GetOr(comps[i].fields, "dailySchedule", JObj([])).JObj?
    requires regionCode.Some? ==> !Truthy(Get(GetOr(comps[i].fields, "dailySchedule", JObj([])).fields, regionCode.value))
    ensures DaySections(JObj(fields), regionCode) == Failure(RegionNotFound)
  {
    FirstScheduleComponent(comps, i, 0);
  }

  /** The search stops at the first schedule component when every earlier
      component is a dict. */
  lemma {:induction false} FirstScheduleComponent(comps: seq<Json>, i: nat, from: nat)
    requires from <= i < |comps| && IsScheduleComponent(comps[i])
    requires forall j :: from <= j < i ==> comps[j].JObj? && !IsScheduleComponent(comps[j])
    ensures FindScheduleComponent(comps, from) == Success(Some(i))
    decreases i - from
  {
    if from < i {
      FirstScheduleComponent(comps, i, from + 1);
    }
  }

  /** The day sections of a well-formed reply: the region's `today` and
      `tomorrow`, each an empty dict when absent. */
  lemma RegionSections(fields: seq<(string, Json)>, comps: seq<Json>, i: nat, code: string,
                       region: seq<(string, Json)>)
    requires GetOr(fields, "components", JList([])) == JList(comps)
    requires i < |comps| && IsScheduleComponent(comps[i])
    requires forall j :: 0 <= j < i ==> comps[j].JObj? && !IsScheduleComponent(comps[j])
    requires GetOr(comps[i].fields, "dailySchedule", JObj([])).JObj?
    requires Get(GetOr(comps[i].fields, "dailySchedule", JObj([])).fields, code) == JObj(region)
    requires |region| > 0
    ensures DaySections(JObj(fields), Some(code))
            == Success((GetOr(region, "today", JObj([])), GetOr(region, "tomorrow", JObj([]))))
  {
    FirstScheduleComponent(comps, i, 0);
  }

  /** On the last representable date a truthy tomorrow section raises the
      date overflow once today's section has parsed. */
  lemma TomorrowAfterLastDateOverflows(today: Json, tomorrow: Json, toUtc: LocalDateTime -> Instant)
    requires ParseScheduleDay(today, LastDate, toUtc).Success?
    requires Truthy(tomorrow)
    ensures DayEvents(today, tomorrow, LastDate, toUtc) == Failure(DateOverflow)
  {
  }
}

=== FILE: eventsort.dfy ===
/** `filtered_events.sort(key=lambda x: x.get("start"))`: Python's stable
    sort of the selected events by start time. */
module EventSort {
  import opened Calendar
  import opened ScheduleDay

  /** Start times never decrease along the sequence. */
  predicate SortedByStart(xs: seq<Event>) {
    forall i, j :: 0 <= i < j < |xs| ==> xs[i].start <= xs[j].start
  }

  /** No event of `xs` starts before `b`. */
  predicate StartsFrom(xs: seq<Event>, b: Instant) {
    forall i :: 0 <= i < |xs| ==> b <= xs[i].start
  }

  /** The events starting at `k`, in their order in `xs`. A stable sort
      keeps this sequence unchanged for every `k`. */
  function WithStart(xs: seq<Event>, k: Instant): seq<Event> {
    if |xs| == 0 then []
    else (if xs[0].start == k then [xs[0]] else []) + WithStart(xs[1..], k)
  }

  lemma SortedCons(x: Event, ys: seq<Event>)
    requires SortedByStart(ys) && StartsFrom(ys, x.start)
    ensures SortedByStart([x] + ys)
  {
    var r := [x] + ys;
    forall i, j | 0 <= i < j < |r|
      ensures r[i].start <= r[j].start
    {
      assert r[j] == ys[j - 1];
      if i > 0 {
        assert r[i] == ys[i - 1];
      }
    }
  }

  lemma SortedTail(xs: seq<Event>)
    requires SortedByStart(xs) && |xs| > 0
    ensures SortedByStart(xs[1..]) && StartsFrom(xs[1..], xs[0].start)
  {
    forall i | 0 <= i < |xs| - 1
      ensures xs[0].start <= xs[1..][i].start
    {
      assert xs[1..][i] == xs[i + 1];
    }
  }

  /** Putting `e` in front of a sorted sequence that starts no earlier. */
  lemma InsertAtFront(e: Event, xs: seq<Event>)
    requires SortedByStart(xs) && (|xs| == 0 || e.start <= xs[0].start)
    ensures SortedByStart([e] + xs)
    ensures forall b :: StartsFrom(xs, b) && b <= e.start ==> StartsFrom([e] + xs, b)
  {
    var r := [e] + xs;
    assert forall i :: 0 < i < |r| ==> r[i] == xs[i - 1];
    if |xs| > 0 {
      SortedTail(xs);
      assert xs == [xs[0]] + xs[1..];
    }
    SortedCons(e, xs);
  }

  /** `e` placed in front of the first event of `xs` that starts no earlier. */
  function InsertByStart(e: Event, xs: seq<Event>): (r: seq<Event>)
    requires SortedByStart(xs)
    ensures SortedByStart(r)
    ensures multiset(r) == multiset(xs) + multiset{e}
    ensures forall b :: StartsFrom(xs, b) && b <= e.start ==> StartsFrom(r, b)
  {
    if |xs| == 0 || e.start <= xs[0].start then
      InsertAtFront(e, xs);
      [e] + xs
    else
      SortedTail(xs);
      var rest := InsertByStart(e, xs[1..]);
      var r := [xs[0]] + rest;
      assert xs == [xs[0]] + xs[1..];
      SortedCons(xs[0], rest);
      assert forall b :: StartsFrom(xs, b) && b <= e.start ==> StartsFrom(r, b) by {
        forall b | StartsFrom(xs, b) && b <= e.start
          ensures StartsFrom(r, b)
        {
          assert StartsFrom(xs[1..], b) by {
            assert forall i :: 0 <= i < |xs| - 1 ==> xs[1..][i] == xs[i + 1];
          }
          assert forall i :: 0 < i < |r| ==> r[i] == rest[i - 1];
        }
      }
      r
  }

  /** The events starting at `k` after `x` is put in front. */
  lemma WithStartCons(x: Event, ys: seq<Event>, k: Instant)
    ensures WithStart([x] + ys, k) == (if x.start == k then [x] else []) + WithStart(ys, k)
  {
    assert ([x] + ys)[1..] == ys;
  }

  /** Insertion puts `e` in front of the events that share its start and
      disturbs no other tie. */
  lemma {:induction false} InsertKeepsTies(e: Event, xs: seq<Event>, k: Instant)
    requires SortedByStart(xs)
    ensures WithStart(InsertByStart(e, xs), k) == (if e.start == k then [e] else []) + WithStart(xs, k)
    decreases |xs|
  {
    if |xs| == 0 || e.start <= xs[0].start {
      WithStartCons(e, xs, k);
    } else {
      SortedTail(xs);
      var rest := InsertByStart(e, xs[1..]);
      InsertKeepsTies(e, xs[1..], k);
      WithStartCons(xs[0], rest, k);
      assert xs == [xs[0]] + xs[1..];
      WithStartCons(xs[0], xs[1..], k);
    }
  }

  /** The sorted events: ordered by start, the same events, and events with
      equal starts in their original order. */
  function SortByStart(xs: seq<Event>): (r: seq<Event>)
    ensures SortedByStart(r)
    ensures multiset(r) == multiset(xs)
    ensures forall k :: WithStart(r, k) == WithStart(xs, k)
  {
    if |xs| == 0 then []
    else
      var sortedTail := SortByStart(xs[1..]);
      var r := InsertByStart(xs[0], sortedTail);
      assert xs == [xs[0]] + xs[1..];
      assert forall k :: WithStart(r, k) == WithStart(xs, k) by {
        forall k
          ensures WithStart(r, k) == WithStart(xs, k)
        {
          InsertKeepsTies(xs[0], sortedTail, k);
          WithStartCons(xs[0], xs[1..], k);
        }
      }
      r
  }

  /** An event starting at `k` shows up among the ties of `k`. */
  lemma {:induction false} WithStartNonEmpty(xs: seq<Event>, k: Instant)
    requires WithStart(xs, k) != []
    ensures exists i :: 0 <= i < |xs| && xs[i].start == k
    decreases |xs|
  {
    if xs[0].start != k {
      WithStartNonEmpty(xs[1..], k);
      var i :| 0 <= i < |xs[1..]| && xs[1..][i].start == k;
      assert xs[i + 1].start == k;
    }
  }

  /** Two sorted sequences with the same ties begin with the same event. */
  lemma SameTiesSameHead(a: seq<Event>, b: seq<Event>)
    requires SortedByStart(a) && SortedByStart(b) && |a| > 0
    requires forall k :: WithStart(a, k) == WithStart(b, k)
    ensures |b| > 0 && a[0] == b[0]
  {
    assert WithStart(a, a[0].start) != [];
    WithStartNonEmpty(b, a[0].start);
    assert WithStart(b, b[0].start) != [];
    WithStartNonEmpty(a, b[0].start);
    assert a[0].start == b[0].start;
    assert WithStart(a, a[0].start)[0] == a[0];
    assert WithStart(b, b[0].start)[0] == b[0];
  }

  /** Dropping a common first event keeps the ties equal. */
  lemma SameTiesSameTail(a: seq<Event>, b: seq<Event>)
    requires |a| > 0 && |b| > 0 && a[0] == b[0]
    requires forall k :: WithStart(a, k) == WithStart(b, k)
    ensures forall k :: WithStart(a[1..], k) == WithStart(b[1..], k)
  {
    forall k
      ensures WithStart(a[1..], k) == WithStart(b[1..], k)
    {
      var p := if a[0].start == k then [a[0]] else [];
      assert WithStart(a, k) == p + WithStart(a[1..], k);
      assert WithStart(b, k) == p + WithStart(b[1..], k);
      assert WithStart(a[1..], k) == (p + WithStart(a[1..], k))[|p|..];
      assert WithStart(b[1..], k) == (p + WithStart(b[1..], k))[|p|..];
    }
  }

  /** Sorting by start is determined by its three properties: two sorted
      sequences with the same ties at every start are equal, so any stable
      sort of `xs` is `SortByStart(xs)`. */
  lemma {:induction false} StableSortIsUnique(a: seq<Event>, b: seq<Event>)
    requires SortedByStart(a) && SortedByStart(b)
    requires forall k :: WithStart(a, k) == WithStart(b, k)
    ensures a == b
    decreases |a|
  {
    assert |a| == 0 ==> |b| == 0 by {
      if |b| > 0 {
        assert WithStart(b, b[0].start) != [];
      }
    }
    if |a| > 0 {
      SameTiesSameHead(a, b);
      SameTiesSameTail(a, b);
      SortedTail(a);
      SortedTail(b);
      StableSortIsUnique(a[1..], b[1..]);
      assert a == [a[0]] + a[1..] && b == [b[0]] + b[1..];
    }
  }

  /** `ys` is a stable sort of `xs` by start: ordered, with the ties of
      every start as in `xs` (and so the same events). */
  ghost predicate StableSortOf(ys: seq<Event>, xs: seq<Event>) {
    SortedByStart(ys) && forall k :: WithStart(ys, k) == WithStart(xs, k)
  }

  /** `SortByStart(xs)` is the one and only stable sort of `xs`. */
  lemma SortByStartIsTheStableSort(xs: seq<Event>, ys: seq<Event>)
    ensures StableSortOf(ys, xs) <==> ys == SortByStart(xs)
  {
    if StableSortOf(ys, xs) {
      StableSortIsUnique(ys, SortByStart(xs));
    }
  }
}

=== FILE: groupfilter.dfy ===
/** The group filter of `_fetch_yasno_schedule`: which events belong to the
    household's group `"main.sub"`. */
module GroupFilter {
  import opened Wrappers
  import opened PyStrings
  import opened PyValues
  import opened ScheduleDay
  import opened Subsequences

  /** The household group as the coordinator reads it: the integer before
      the first '.', and the text after it (up to a second '.'), if any. */
  datatype Target = Target(main: int, subgroup: Option<string>)

  /** The separator of a range key `"A...B"`. */
  const RangeMarker := "..."

  /** `main_group = int(group.split('.')[0])` and
      `subgroup = group.split('.')[1] if '.' in group else None`. */
  function ParseTarget(group: string): (r: Result<Target, Cause>)
    ensures r.Success? <==> ParseInt(Split(group, ".")[0]).Some?
    ensures r.Failure? ==> r.error == IntConversion
    ensures r.Success? ==> r.value.main == ParseInt(Split(group, ".")[0]).value
    ensures r.Success? ==> (r.value.subgroup.Some? <==> Contains(group, "."))
    ensures r.Success? && r.value.subgroup.Some? ==> !Contains(r.value.subgroup.value, ".")
    ensures r.Success? && Contains(group, ".") ==> r.value.subgroup == Some(Split(group, ".")[1])
  {
    var parts := Split(group, ".");
    match ParseInt(parts[0])
    case None => Failure(IntConversion)
    case Some(main) => Success(Target(main, if Contains(group, ".") then Some(parts[1]) else None))
  }

  /** `if subgroup:` — a subgroup that is present and not empty. */
  predicate HasSubgroup(t: Target) {
    t.subgroup.Some? && |t.subgroup.value| > 0
  }

  /** A key whose range split yields more than two parts, so that
      `start_range, end_range = grp_key.split("...")` raises. */
  predicate TooManyRanges(key: string) {
    |Split(key, RangeMarker)| > 2
  }

  /** The loop body for one event key: keep (true), skip (false), or the
      ValueError of the two-name unpack. */
  function KeyVerdict(key: string, t: Target): (r: Result<bool, Cause>)
    ensures r.Failure? <==> TooManyRanges(key)
    ensures r.Failure? ==> r.error == TooManyRangeParts
  {
    if |key| == 0 then
      assert !Contains(key, RangeMarker);
      Success(false)
    else if Contains(key, RangeMarker) then
      var parts := Split(key, RangeMarker);
      if |parts| != 2 then Failure(TooManyRangeParts)
      else
        match (ParseInt(parts[0]), ParseInt(parts[1]))
        case (Some(lo), Some(hi)) => Success(lo <= t.main <= hi)
        case _ => Success(false)
    else if HasSubgroup(t) then
      Success(key == IntToString(t.main) + "." + t.subgroup.value)
    else
      Success(ParseInt(Split(key, ".")[0]) == Some(t.main))
  }

  /** The filter keeps the event with this key. */
  predicate Selected(key: string, t: Target) {
    KeyVerdict(key, t) == Success(true)
  }

  /** The number of events the filter keeps. */
  function CountSelected(evs: seq<Event>, t: Target): nat {
    if |evs| == 0 then 0 else (if Selected(evs[0].groupKey, t) then 1 else 0) + CountSelected(evs[1..], t)
  }

  /** The loop over all events: the selected ones in their original order,
      or the ValueError of the first key with two range markers. */
  function FilterEvents(evs: seq<Event>, t: Target): (r: Result<seq<Event>, Cause>)
    ensures r.Failure? ==> r.error == TooManyRangeParts
  {
    if |evs| == 0 then Success([])
    else
      var keep :- KeyVerdict(evs[0].groupKey, t);
      var rest :- FilterEvents(evs[1..], t);
      if keep then Success([evs[0]] + rest) else Success(rest)
  }

  /** What the filter keeps: a subsequence of the events, each of them
      selected, as many as there are selected events. */
  lemma {:induction false} FilterKeepsSelected(evs: seq<Event>, t: Target)
    requires FilterEvents(evs, t).Success?
    ensures IsSubsequence(FilterEvents(evs, t).value, evs)
    ensures forall i :: 0 <= i < |FilterEvents(evs, t).value| ==> Selected(FilterEvents(evs, t).value[i].groupKey, t)
    ensures |FilterEvents(evs, t).value| == CountSelected(evs, t)
    decreases |evs|
  {
    if |evs| > 0 {
      var rest := FilterEvents(evs[1..], t).value;
      FilterKeepsSelected(evs[1..], t);
      var r := FilterEvents(evs, t).value;
      if Selected(evs[0].groupKey, t) {
        assert r == [evs[0]] + rest;
        assert r[1..] == rest;
        assert forall i :: 0 < i < |r| ==> r[i] == rest[i - 1];
      } else {
        assert r == rest;
      }
    }
  }

  /** The filter raises exactly when some key holds two range markers. */
  lemma {:induction false} FilterFailsExactly(evs: seq<Event>, t: Target)
    ensures FilterEvents(evs, t).Success? <==> forall i :: 0 <= i < |evs| ==> !TooManyRanges(evs[i].groupKey)
    decreases |evs|
  {
    if |evs| > 0 {
      FilterFailsExactly(evs[1..], t);
      assert forall i :: 0 < i < |evs| ==> evs[i] == evs[1..][i - 1];
    }
  }

  // ---------------------------------------------------------------------
  // Splitting keys that are free of dots
  // ---------------------------------------------------------------------

  /** `s` holds no '.'. */
  predicate NoDots(s: string) {
    forall i :: 0 <= i < |s| ==> s[i] != '.'
  }

  lemma IntToStringNoDots(n: int)
    ensures NoDots(IntToString(n))
  {
  }

  /** A separator starting with '.' does not occur in a dot-free string. */
  lemma NoDotsNoOccurrence(s: string, sep: string)
    requires |sep| > 0 && sep[0] == '.' && NoDots(s)
    ensures !Contains(s, sep)
  {
    forall j | 0 <= j <= |s|
      ensures !OccursAt(s, sep, j)
    {
      if j + |sep| <= |s| {
        assert s[j..j + |sep|][0] == s[j];
      }
    }
  }

  /** A key with a single '.' holds no range marker. */
  lemma SingleDotNoRange(x: string, s: string)
    requires NoDots(x) && NoDots(s)
    ensures !Contains(x + "." + s, RangeMarker)
  {
    var key := x + "." + s;
    forall j | 0 <= j <= |key|
      ensures !OccursAt(key, RangeMarker, j)
    {
      if j + 3 <= |key| {
        assert key[j..j + 3][0] == key[j] && key[j..j + 3][1] == key[j + 1];
        assert key[j] != '.' || key[j + 1] != '.';
      }
    }
  }

  /** Splitting `x + sep + y` on `sep` when `x` is dot-free and `sep`
      starts with '.': the first part is `x`. */
  lemma SplitAfterDotFree(x: string, sep: string, y: string)
    requires |sep| > 0 && sep[0] == '.' && NoDots(x)
    ensures Split(x + sep + y, sep) == [x] + Split(y, sep)
  {
    var s := x + sep + y;
    assert OccursAt(s, sep, |x|) by {
      assert s[|x|..|x| + |sep|] == sep;
    }
    forall j | 0 <= j < |x|
      ensures !OccursAt(s, sep, j)
    {
      assert j + |sep| <= |s| ==> s[j..j + |sep|][0] == x[j];
    }
    assert Find(s, sep) == Some(|x|);
    assert s[..|x|] == x;
    assert s[|x| + |sep|..] == y;
  }

  /** A dot-free string splits into itself alone. */
  lemma SplitDotFree(s: string, sep: string)
    requires |sep| > 0 && sep[0] == '.' && NoDots(s)
    ensures Split(s, sep) == [s]
  {
    NoDotsNoOccurrence(s, sep);
  }

  /** Two dot-free heads joined by '.' to tails agree only when both heads
      and both tails do. */
  lemma DotJoinInjective(x: string, s: string, y: string, u: string)
    requires NoDots(x) && NoDots(y)
    requires x + "." + s == y + "." + u
    ensures x == y && s == u
  {
    var w := x + "." + s;
    assert w[|x|] == '.';
    assert w == y + "." + u;
    assert w[|y|] == '.';
    assert forall i :: 0 <= i < |x| ==> w[i] == x[i];
    assert forall i :: 0 <= i < |y| ==> w[i] == y[i];
    assert |x| == |y|;
    assert x == w[..|x|] && y == w[..|y|];
    assert s == w[|x| + 1..] && u == w[|y| + 1..];
  }

  lemma IntToStringInjective(m: int, n: int)
    requires IntToString(m) == IntToString(n)
    ensures m == n
  {
    ParseIntOfIntToString(m);
    ParseIntOfIntToString(n);
  }

  // ---------------------------------------------------------------------
  // Which keys a target selects
  // ---------------------------------------------------------------------

  /** `ParseTarget` reads back the group it is given: "m.s" is (m, s) and
      "m" is (m, no subgroup). */
  lemma ParseTargetReadsGroup(m: int, s: string)
    requires NoDots(s)
    ensures ParseTarget(IntToString(m) + "." + s) == Success(Target(m, Some(s)))
    ensures ParseTarget(IntToString(m)) == Success(Target(m, None))
  {
    IntToStringNoDots(m);
    ParseIntOfIntToString(m);
    SplitAfterDotFree(IntToString(m), ".", s);
    SplitDotFree(s, ".");
    assert Contains(IntToString(m) + "." + s, ".") by {
      assert OccursAt(IntToString(m) + "." + s, ".", |IntToString(m)|);
    }
    SplitDotFree(IntToString(m), ".");
  }

  /** Splitting "a.s" + tail on '.', where tail is empty or starts with a
      further '.', gives a and s as the first two parts. */
  lemma SplitFirstTwoParts(a: string, s: string, tail: string)
    requires NoDots(a) && NoDots(s)
    requires tail == [] || tail[0] == '.'
    ensures |Split(a + "." + s + tail, ".")| >= 2
    ensures Split(a + "." + s + tail, ".")[0] == a
    ensures Split(a + "." + s + tail, ".")[1] == s
  {
    if tail == [] {
      assert a + "." + s + tail == a + "." + s;
      SplitAfterDotFree(a, ".", s);
      SplitDotFree(s, ".");
    } else {
      var u := tail[1..];
      assert a + "." + s + tail == a + "." + (s + "." + u);
      SplitAfterDotFree(a, ".", s + "." + u);
      SplitAfterDotFree(s, ".", u);
    }
  }

  /** Any group whose text starts "a.s", with neither part holding a '.',
      and goes on with nothing or with a further '.': the main group is
      `int(a)` (or `int()` raises), and the subgroup is s, whatever follows. */
  lemma ParseTargetReadsFirstTwoParts(a: string, s: string, tail: string)
    requires NoDots(a) && NoDots(s)
    requires tail == [] || tail[0] == '.'
    ensures ParseTarget(a + "." + s + tail) ==
              if ParseInt(a).Some? then Success(Target(ParseInt(a).value, Some(s))) else Failure(IntConversion)
  {
    var group := a + "." + s + tail;
    SplitFirstTwoParts(a, s, tail);
    assert Contains(group, ".") by {
      assert OccursAt(group, ".", |a|);
    }
  }

  /** "1.2.3" is main group 1 with subgroup "2": the part after a second
      '.' is dropped. */
  lemma ThreePartGroup()
    ensures ParseTarget("1.2.3") == Success(Target(1, Some("2")))
  {
    assert "1.2.3" == "1" + "." + "2" + ".3";
    ParseTargetReadsFirstTwoParts("1", "2", ".3");
    assert ParseInt("1") == Some(1) by {
      ParseIntOfIntToString(1);
      assert IntToString(1) == "1";
    }
  }

  /** A range key "A...B" selects exactly the targets whose main group lies
      in A..B, whatever the subgroup. */
  lemma RangeKeySelectsMainInRange(lo: int, hi: int, t: Target)
    ensures KeyVerdict(IntToString(lo) + RangeMarker + IntToString(hi), t) == Success(lo <= t.main <= hi)
  {
    IntToStringNoDots(lo);
    IntToStringNoDots(hi);
    ParseIntOfIntToString(lo);
    ParseIntOfIntToString(hi);
    RangeOfParsedBounds(IntToString(lo), IntToString(hi), lo, hi, t);
  }

  /** A range key whose dot-free bounds parse to `lo` and `hi`. */
  lemma RangeOfParsedBounds(a: string, b: string, lo: int, hi: int, t: Target)
    requires NoDots(a) && NoDots(b) && |a| > 0
    requires ParseInt(a) == Some(lo) && ParseInt(b) == Some(hi)
    ensures KeyVerdict(a + RangeMarker + b, t) == Success(lo <= t.main <= hi)
  {
    var key := a + RangeMarker + b;
    SplitAfterDotFree(a, RangeMarker, b);
    SplitDotFree(b, RangeMarker);
    assert Split(key, RangeMarker) == [a, b];
    assert Contains(key, RangeMarker) by {
      assert OccursAt(key, RangeMarker, |a|);
    }
  }

  /** An event whose group key is empty is dropped, whatever the target. */
  lemma EmptyKeyIsSkipped(t: Target)
    ensures KeyVerdict("", t) == Success(false)
  {
  }

  /** A range key whose bounds are not both integers is skipped, not fatal. */
  lemma MalformedRangeIsSkipped(a: string, b: string, t: Target)
    requires NoDots(a) && NoDots(b)
    requires ParseInt(a).None? || ParseInt(b).None?
    ensures KeyVerdict(a + RangeMarker + b, t) == Success(false)
  {
    var key := a + RangeMarker + b;
    SplitAfterDotFree(a, RangeMarker, b);
    SplitDotFree(b, RangeMarker);
    assert Contains(key, RangeMarker) by {
      assert OccursAt(key, RangeMarker, |a|);
    }
  }

  /** A key with a second range marker makes the whole filter raise. */
  lemma DoubleRangeRaises(a: string, b: string, c: string, t: Target)
    requires NoDots(a) && NoDots(b)
    ensures KeyVerdict(a + RangeMarker + b + RangeMarker + c, t) == Failure(TooManyRangeParts)
  {
    var key := a + RangeMarker + b + RangeMarker + c;
    assert key == a + RangeMarker + (b + RangeMarker + c);
    SplitAfterDotFree(a, RangeMarker, b + RangeMarker + c);
    SplitAfterDotFree(b, RangeMarker, c);
  }

  /** A run of seven dots is cut into "1", "" and ".3" by the leftmost
      cuts, so "1.......3" raises rather than being read as a range. */
  lemma SevenDotsRaise(t: Target)
    ensures KeyVerdict("1.......3", t) == Failure(TooManyRangeParts)
  {
    var a, b, c := "1", "", ".3";
    assert a + RangeMarker + b + RangeMarker + c == "1.......3";
    assert NoDots(a) && NoDots(b);
    DoubleRangeRaises(a, b, c, t);
  }

  /** With a subgroup, an exact key "m.s" is selected exactly when it names
      the target's own main group and subgroup. */
  lemma ExactKeyWithSubgroup(m: int, s: string, t: Target)
    requires HasSubgroup(t) && NoDots(s)
    ensures KeyVerdict(IntToString(m) + "." + s, t) == Success(m == t.main && s == t.subgroup.value)
  {
    var key := IntToString(m) + "." + s;
    IntToStringNoDots(m);
    SingleDotNoRange(IntToString(m), s);
    assert |key| > 0;
    var target := IntToString(t.main) + "." + t.subgroup.value;
    if key == target {
      IntToStringNoDots(t.main);
      DotJoinInjective(IntToString(m), s, IntToString(t.main), t.subgroup.value);
      IntToStringInjective(m, t.main);
    }
  }

  /** Without a subgroup, an exact key is selected exactly when the integer
      before its first '.' is the target's main group. */
  lemma ExactKeyWithoutSubgroup(m: int, s: string, t: Target)
    requires !HasSubgroup(t) && NoDots(s)
    ensures KeyVerdict(IntToString(m) + "." + s, t) == Success(m == t.main)
    ensures KeyVerdict(IntToString(m), t) == Success(m == t.main)
  {
    var key := IntToString(m) + "." + s;
    IntToStringNoDots(m);
    SingleDotNoRange(IntToString(m), s);
    SplitAfterDotFree(IntToString(m), ".", s);
    SplitDotFree(IntToString(m), ".");
    NoDotsNoOccurrence(IntToString(m), RangeMarker);
    ParseIntOfIntToString(m);
  }

  /** Without a subgroup, a key whose main part is not an integer is
      skipped without raising. */
  lemma UnparsableMainIsSkipped(key: string, t: Target)
    requires !HasSubgroup(t) && !Contains(key, RangeMarker)
    requires ParseInt(Split(key, ".")[0]).None?
    ensures KeyVerdict(key, t) == Success(false)
  {
  }
}

=== FILE: hourvalue.dfy ===
/** `_time_to_datetime`: from the hour value of one interval bound in the
    Yasno JSON to a UTC instant on a given calendar day. */
module HourValue {
  import opened Wrappers
  import opened PyStrings
  import opened PyValues
  import opened Calendar

  /** `int(x)` for a float: truncation toward zero. */
  function Trunc(x: real): (n: int)
    ensures 0.0 <= x ==> n as real <= x < n as real + 1.0
    ensures x < 0.0 ==> n as real - 1.0 < x <= n as real
  {
    if 0.0 <= x then x.Floor else -((-x).Floor)
  }

  /** `int(v)`: integers as they are, booleans as 0 or 1, floats truncated,
      strings parsed; anything else raises. */
  function IntOf(v: Json): Result<int, Cause> {
    match v
    case JInt(i) => Success(i)
    case JBool(b) => Success(if b then 1 else 0)
    case JReal(x) => Success(Trunc(x))
    case JStr(s) => if ParseInt(s).Some? then Success(ParseInt(s).value) else Failure(IntConversion)
    case _ => Failure(IntConversion)
  }

  /** How far a fraction may stray from one half and still mean ":30". */
  const HalfHourTolerance: real := 0.000001

  predicate IsHalf(frac: real) {
    -HalfHourTolerance < frac - 0.5 < HalfHourTolerance
  }

  /** The hour and minute handed to `datetime()`. `int(v)` runs first, so
      every failure is its failure. A number (a boolean is one) gives minute
      30 when its fraction is one half, else 0. A string that got past
      `int(v)` is re-read by `float()` after ',' becomes '.'; that re-read
      cannot alter the hour or produce a half hour. */
  function HourAndMinute(v: Json): (r: Result<(int, int), Cause>)
    ensures r.Success? <==> IntOf(v).Success?
    ensures r.Failure? ==> r.error == IntConversion
    ensures r.Success? ==> r.value.0 == IntOf(v).value
    ensures r.Success? ==> r.value.1 == 0 || r.value.1 == 30
    ensures r.Success? ==> (r.value.1 == 30 <==> v.JReal? && IsHalf(v.r - r.value.0 as real))
  {
    var hour :- IntOf(v);
    match v
    case JInt(i) => Success((hour, if IsHalf(i as real - hour as real) then 30 else 0))
    case JBool(b) => Success((hour, if IsHalf((if b then 1.0 else 0.0) - hour as real) then 30 else 0))
    case JReal(x) => Success((hour, if IsHalf(x - hour as real) then 30 else 0))
    case JStr(s) =>
      IntLiteralReparses(s, hour);
      match ParseDecimal(ReplaceChar(s, ',', '.'))
      case Some(val) =>
        var h := Trunc(val);
        Success((h, if IsHalf(val - h as real) then 30 else 0))
      case None => Success((hour, 0))
  }

  /** `_time_to_datetime(date, v)`: the UTC instant of the local time
      `HourAndMinute(v)` on `date`, or the exception that stops it. */
  function TimeToInstant(date: Date, v: Json, toUtc: LocalDateTime -> Instant): (r: Result<Instant, Cause>)
    requires ValidDate(date)
    ensures r.Success? <==> IntOf(v).Success? && 0 <= IntOf(v).value < 24
    ensures r.Success? ==>
              r.value == toUtc(LocalDateTime(date, IntOf(v).value,
                                             if v.JReal? && IsHalf(v.r - IntOf(v).value as real) then 30 else 0))
    ensures r.Failure? ==> r.error == (if IntOf(v).Failure? then IntConversion
                                       else if FitsCInt(IntOf(v).value) then TimeOutOfRange
                                       else TimeOverflow)
  {
    var hm :- HourAndMinute(v);
    var local :- MakeLocal(date, hm.0, hm.1);
    Success(toUtc(local))
  }

  // ---------------------------------------------------------------------
  // What each kind of hour value becomes
  // ---------------------------------------------------------------------

  /** A float `n.5` is n:30. */
  lemma HalfHourFloat(n: nat)
    ensures HourAndMinute(JReal(n as real + 0.5)) == Success((n, 30))
  {
    assert Trunc(n as real + 0.5) == n;
  }

  /** Any other fraction is dropped: `n.25` and `n.75` are n:00. */
  lemma OtherFractionRoundsDown(n: nat, f: real)
    requires 0.0 <= f < 1.0 && !IsHalf(f)
    ensures HourAndMinute(JReal(n as real + f)) == Success((n, 0))
  {
    assert Trunc(n as real + f) == n;
  }

  /** Quarter hours as the source sees them. */
  lemma QuarterHoursRoundDown(n: nat)
    ensures HourAndMinute(JReal(n as real + 0.25)) == Success((n, 0))
    ensures HourAndMinute(JReal(n as real + 0.75)) == Success((n, 0))
  {
    OtherFractionRoundsDown(n, 0.25);
    OtherFractionRoundsDown(n, 0.75);
  }

  /** An integer hour is a whole hour. */
  lemma IntegerHour(n: int)
    ensures HourAndMinute(JInt(n)) == Success((n, 0))
  {
  }

  /** A string is a whole hour when `int()` accepts it and fails otherwise:
      the comma-handling branch never yields a half hour. */
  lemma StringHour(s: string)
    ensures ParseInt(s).Some? ==> HourAndMinute(JStr(s)) == Success((ParseInt(s).value, 0))
    ensures ParseInt(s).None? ==> HourAndMinute(JStr(s)) == Failure(IntConversion)
  {
  }

  /** "9" is 09:00, while "9,5" and "9.5" make `int()` raise. */
  lemma StringHalfHoursFail()
    ensures HourAndMinute(JStr("9")) == Success((9, 0))
    ensures HourAndMinute(JStr("9,5")) == Failure(IntConversion)
    ensures HourAndMinute(JStr("9.5")) == Failure(IntConversion)
  {
    NineParses();
    HalfHourTextRejected("9,5");
    HalfHourTextRejected("9.5");
    StringHour("9");
    StringHour("9,5");
    StringHour("9.5");
  }

  lemma NineParses()
    ensures ParseInt("9") == Some(9)
  {
    assert Strip("9") == "9";
    assert SplitSign("9") == (false, "9");
    assert DigitsValue("9") == 9;
  }

  /** A digit, a separator that is not a digit, and a digit: `int()` raises. */
  lemma HalfHourTextRejected(t: string)
    requires |t| == 3 && t[0] == '9' && !IsDigit(t[1]) && !IsSpace(t[1]) && t[2] == '5'
    ensures ParseInt(t).None?
  {
    assert Strip(t) == t;
    assert SplitSign(t) == (false, t);
    assert !AllDigits(t) by { assert !IsDigit(t[1]); }
  }

  /** -0.5 truncates to hour 0 and its fraction -0.5 is not a half: 00:00. */
  lemma NegativeHalfIsMidnight()
    ensures HourAndMinute(JReal(-0.5)) == Success((0, 0))
  {
    assert Trunc(-0.5) == 0;
  }

  /** An hour `int()` accepts but outside 0..23, such as an interval end of
      24, makes `datetime()` raise: OverflowError when it does not even fit
      a C `int`, ValueError otherwise. */
  lemma HourOutsideDayFails(date: Date, v: Json, toUtc: LocalDateTime -> Instant)
    requires ValidDate(date)
    requires IntOf(v).Success? && !(0 <= IntOf(v).value < 24)
    ensures TimeToInstant(date, v, toUtc)
            == Failure(if FitsCInt(IntOf(v).value) then TimeOutOfRange else TimeOverflow)
  {
  }

  /** An hour of 1e10 overflows the C `int` of `datetime()`. */
  lemma HugeHourOverflows(date: Date, toUtc: LocalDateTime -> Instant)
    requires ValidDate(date)
    ensures TimeToInstant(date, JReal(10000000000.0), toUtc) == Failure(TimeOverflow)
  {
    assert Trunc(10000000000.0) == 10000000000;
  }

  /** The tolerance band: any float within 1e-6 of n.5 is n:30. */
  lemma HalfHourBand(n: nat, d: real)
    requires -HalfHourTolerance < d < HalfHourTolerance
    ensures HourAndMinute(JReal(n as real + 0.5 + d)) == Success((n, 30))
  {
    assert Trunc(n as real + 0.5 + d) == n;
  }

  /** A negative float is never a half hour: it truncates up to an hour
      at most 0, and its fraction is at most 0. */
  lemma NegativeFloatIsWholeHour(x: real)
    requires x < 0.0
    ensures HourAndMinute(JReal(x)).Success?
    ensures HourAndMinute(JReal(x)).value.0 <= 0 && HourAndMinute(JReal(x)).value.1 == 0
  {
  }

  /** The end of day written as 24 fails. */
  lemma HourTwentyFourFails(date: Date, toUtc: LocalDateTime -> Instant)
    requires ValidDate(date)
    ensures TimeToInstant(date, JInt(24), toUtc) == Failure(TimeOutOfRange)
    ensures TimeToInstant(date, JReal(24.0), toUtc) == Failure(TimeOutOfRange)
  {
    assert Trunc(24.0) == 24;
  }

  /** 13.5 on `date` is the instant of 13:30 local time. */
  lemma HalfPastOne(date: Date, toUtc: LocalDateTime -> Instant)
    requires ValidDate(date)
    ensures TimeToInstant(date, JReal(13.5), toUtc) == Success(toUtc(LocalDateTime(date, 13, 30)))
  {
    HalfHourFloat(13);
  }
}

=== FILE: pystrings.dfy ===
/** The Python `str` operations the integration relies on: `in`, `find`,
    `split`, `join`, `replace`, `strip`, `int()`, `float()`, `str(int)` and
    the `<` ordering of strings. */
module PyStrings {
  import opened Wrappers

  // ---------------------------------------------------------------------
  // Occurrences and `in`
  // ---------------------------------------------------------------------

  /** `pat` occurs in `s` starting at index `i`. */
  predicate OccursAt(s: string, pat: string, i: int) {
    0 <= i && i + |pat| <= |s| && s[i..i + |pat|] == pat
  }

  /** `pat in s`. */
  predicate Contains(s: string, pat: string) {
    exists i | 0 <= i <= |s| :: OccursAt(s, pat, i)
  }

  /** `s.find(pat, from)`: the leftmost occurrence at or after `from`. */
  function FindFrom(s: string, pat: string, from: nat): (r: Option<nat>)
    decreases |s| - from
    ensures r.Some? ==> from <= r.value && OccursAt(s, pat, r.value)
    ensures forall j :: from <= j && (r.Some? ==> j < r.value) ==> !OccursAt(s, pat, j)
  {
    if from + |pat| > |s| then None
    else if s[from..from + |pat|] == pat then Some(from)
    else FindFrom(s, pat, from + 1)
  }

  /** `s.find(pat)`, with `None` for Python's -1. */
  function Find(s: string, pat: string): (r: Option<nat>)
    ensures r.Some? <==> Contains(s, pat)
    ensures r.Some? ==> OccursAt(s, pat, r.value)
    ensures forall j :: 0 <= j && (r.Some? ==> j < r.value) ==> !OccursAt(s, pat, j)
  {
    FindFrom(s, pat, 0)
  }

  /** An occurrence inside a prefix is an occurrence in the whole string. */
  lemma OccursInPrefix(s: string, pat: string, n: nat, j: int)
    requires n <= |s|
    requires OccursAt(s[..n], pat, j)
    ensures OccursAt(s, pat, j)
  {
    assert s[..n][j..j + |pat|] == s[j..j + |pat|];
  }

  // ---------------------------------------------------------------------
  // `split`, `join` and `replace`
  // ---------------------------------------------------------------------

  /** `sep.join(parts)`. */
  function Join(parts: seq<string>, sep: string): string
    requires |parts| >= 1
  {
    if |parts| == 1 then parts[0] else parts[0] + sep + Join(parts[1..], sep)
  }

  /** `"".join(parts)`. */
  function Concat(parts: seq<string>): string {
    if |parts| == 0 then "" else parts[0] + Concat(parts[1..])
  }

  /** Cutting `s` at the leftmost occurrence of `sep`, found at `i`. */
  lemma SplitStep(s: string, sep: string, i: nat)
    requires |sep| > 0
    requires Find(s, sep) == Some(i)
    ensures s == s[..i] + sep + s[i + |sep|..]
    ensures !Contains(s[..i], sep)
  {
    assert s[i..i + |sep|] == sep;
    assert s == s[..i] + s[i..i + |sep|] + s[i + |sep|..];
    forall j | 0 <= j <= i && OccursAt(s[..i], sep, j)
      ensures false
    {
      OccursInPrefix(s, sep, i, j);
    }
  }

  /** An index where `pat` does not occur in `s` is none in a prefix either. */
  lemma NoOccurrenceInPrefix(s: string, pat: string, n: nat, j: int)
    requires n <= |s|
    requires !OccursAt(s, pat, j)
    ensures !OccursAt(s[..n], pat, j)
  {
    if 0 <= j && j + |pat| <= n {
      assert s[..n][j..j + |pat|] == s[j..j + |pat|];
    }
  }

  /** The piece before the leftmost occurrence, with the separator put back,
      holds no earlier occurrence: no cut could have come sooner. */
  lemma LeftmostCut(s: string, sep: string, i: nat)
    requires |sep| > 0
    requires Find(s, sep) == Some(i)
    ensures Find(s[..i] + sep, sep) == Some(i)
  {
    var t := s[..i] + sep;
    assert t == s[..i + |sep|];
    assert OccursAt(t, sep, i) by { assert t[i..i + |sep|] == sep; }
    forall j | 0 <= j < i
      ensures !OccursAt(t, sep, j)
    {
      NoOccurrenceInPrefix(s, sep, i + |sep|, j);
    }
  }

  /** No part but the last, with the separator put back, holds an
      occurrence before its end: each cut is at the leftmost occurrence. */
  predicate CutsLeftmost(parts: seq<string>, sep: string) {
    forall k :: 0 <= k < |parts| - 1 ==> Find(parts[k] + sep, sep) == Some(|parts[k]|)
  }

  lemma CutsLeftmostCons(first: string, rest: seq<string>, sep: string)
    requires Find(first + sep, sep) == Some(|first|)
    requires CutsLeftmost(rest, sep)
    ensures CutsLeftmost([first] + rest, sep)
  {
    var parts := [first] + rest;
    forall k | 0 < k < |parts| - 1
      ensures Find(parts[k] + sep, sep) == Some(|parts[k]|)
    {
      assert parts[k] == rest[k - 1];
    }
  }

  /** `s.split(sep)` for a non-empty separator: cuts at the leftmost
      occurrences, scanning on after each cut. */
  function Split(s: string, sep: string): (parts: seq<string>)
    requires |sep| > 0
    decreases |s|
    ensures |parts| >= 1
    ensures Join(parts, sep) == s
    ensures forall k :: 0 <= k < |parts| ==> !Contains(parts[k], sep)
    ensures |parts| == 1 <==> !Contains(s, sep)
    ensures CutsLeftmost(parts, sep)
  {
    match Find(s, sep)
    case None => [s]
    case Some(i) =>
      SplitStep(s, sep, i);
      LeftmostCut(s, sep, i);
      var rest := Split(s[i + |sep|..], sep);
      CutsLeftmostCons(s[..i], rest, sep);
      assert ([s[..i]] + rest)[1..] == rest;
      [s[..i]] + rest
  }

  /** `s.replace(pat, "")`: drops every occurrence found scanning left to
      right; the scan resumes after each dropped occurrence. */
  function RemoveAll(s: string, pat: string): (r: string)
    requires |pat| > 0
    decreases |s|
    ensures |r| <= |s|
  {
    if |s| < |pat| then s
    else if s[..|pat|] == pat then RemoveAll(s[|pat|..], pat)
    else [s[0]] + RemoveAll(s[1..], pat)
  }

  /** A string without an occurrence of `pat` is left unchanged. */
  lemma {:induction false} RemoveAllWithoutOccurrence(s: string, pat: string)
    requires |pat| > 0
    requires !Contains(s, pat)
    ensures RemoveAll(s, pat) == s
    decreases |s|
  {
    if |s| >= |pat| {
      assert !OccursAt(s, pat, 0);
      assert s[..|pat|] != pat;
      assert !Contains(s[1..], pat) by {
        forall j | 0 <= j <= |s[1..]|
          ensures !OccursAt(s[1..], pat, j)
        {
          OccursShift(s, pat, j);
        }
      }
      RemoveAllWithoutOccurrence(s[1..], pat);
      assert [s[0]] + s[1..] == s;
    }
  }

  /** Occurrences in `s[1..]` are those in `s`, one index earlier. */
  lemma OccursShift(s: string, pat: string, j: nat)
    requires |s| > 0
    ensures OccursAt(s[1..], pat, j) <==> OccursAt(s, pat, j + 1)
  {
    if j + 1 + |pat| <= |s| {
      assert s[1..][j..j + |pat|] == s[j + 1..j + 1 + |pat|];
    }
  }

  /** Without an occurrence at index 0 the scan keeps the first character. */
  lemma RemoveAllKeepsHead(s: string, pat: string)
    requires |pat| > 0
    requires |pat| <= |s| && !OccursAt(s, pat, 0)
    ensures RemoveAll(s, pat) == [s[0]] + RemoveAll(s[1..], pat)
  {
    assert s[..|pat|] != pat;
  }

  /** Dropping the first character shifts every occurrence one index down. */
  lemma NoOccurrenceBeforeShifts(s: string, pat: string, i: nat)
    requires 0 < i && |s| > 0
    requires forall j :: 0 <= j < i ==> !OccursAt(s, pat, j)
    ensures forall j :: 0 <= j < i - 1 ==> !OccursAt(s[1..], pat, j)
  {
    forall j | 0 <= j < i - 1
      ensures !OccursAt(s[1..], pat, j)
    {
      OccursShift(s, pat, j);
    }
  }

  /** One step of the scan: keeping the head character in front of what the
      scan of the tail keeps. */
  lemma RemoveAllConsStep(s: string, pat: string, i: nat, kept: string, rest: string)
    requires |pat| > 0 && 0 < i && i + |pat| <= |s|
    requires !OccursAt(s, pat, 0)
    requires kept == s[1..][..i - 1]
    requires RemoveAll(s[1..], pat) == kept + rest
    ensures RemoveAll(s, pat) == s[..i] + rest
  {
    RemoveAllKeepsHead(s, pat);
    HeadThenSlice(s, i, kept);
    ConsAssociates(s[0], kept, rest);
  }

  lemma HeadThenSlice(s: string, i: nat, kept: string)
    requires 0 < i <= |s| && kept == s[1..][..i - 1]
    ensures [s[0]] + kept == s[..i]
  {
    assert kept == s[1..i];
  }

  lemma ConsAssociates(c: char, a: string, b: string)
    ensures [c] + (a + b) == ([c] + a) + b
  {
  }

  /** When no occurrence starts before `i` and one starts at `i`, the scan
      keeps `s[..i]` and resumes after that occurrence. */
  lemma {:induction false} RemoveAllUpTo(s: string, pat: string, i: nat)
    requires |pat| > 0
    requires OccursAt(s, pat, i)
    requires forall j :: 0 <= j < i ==> !OccursAt(s, pat, j)
    ensures RemoveAll(s, pat) == s[..i] + RemoveAll(s[i + |pat|..], pat)
    decreases i
  {
    if i == 0 {
      assert s[..|pat|] == pat;
      assert s[..i] == [];
    } else {
      OccursShift(s, pat, i - 1);
      NoOccurrenceBeforeShifts(s, pat, i);
      assert !OccursAt(s, pat, 0);
      RemoveAllUpTo(s[1..], pat, i - 1);
      assert s[1..][i - 1 + |pat|..] == s[i + |pat|..];
      RemoveAllConsStep(s, pat, i, s[1..][..i - 1], RemoveAll(s[i + |pat|..], pat));
    }
  }

  /** Python's identity `s.replace(p, "") == "".join(s.split(p))`. */
  lemma {:induction false} RemoveAllIsConcatOfSplit(s: string, pat: string)
    requires |pat| > 0
    ensures RemoveAll(s, pat) == Concat(Split(s, pat))
    decreases |s|
  {
    match Find(s, pat)
    case None =>
      RemoveAllWithoutOccurrence(s, pat);
      assert Split(s, pat) == [s];
      assert Concat([s]) == s + Concat([]);
    case Some(i) =>
      var rest := s[i + |pat|..];
      RemoveAllUpTo(s, pat, i);
      RemoveAllIsConcatOfSplit(rest, pat);
      assert Split(s, pat) == [s[..i]] + Split(rest, pat);
      assert ([s[..i]] + Split(rest, pat))[1..] == Split(rest, pat);
  }

  /** `s.replace(a, b)` for single characters. */
  function ReplaceChar(s: string, a: char, b: char): (r: string)
    ensures |r| == |s|
    ensures forall i :: 0 <= i < |s| ==> r[i] == (if s[i] == a then b else s[i])
  {
    seq(|s|, i requires 0 <= i < |s| => if s[i] == a then b else s[i])
  }

  // ---------------------------------------------------------------------
  // Whitespace, digits and number parsing
  // ---------------------------------------------------------------------

  /** ASCII characters Python treats as whitespace: space, \t \n \v \f \r
      and the separators \x1c..\x1f. */
  predicate IsSpace(c: char) {
    c == ' ' || (9 <= c as int <= 13) || (28 <= c as int <= 31)
  }

  function TrimStart(s: string): (r: string)
    ensures |r| <= |s|
    ensures |r| > 0 ==> !IsSpace(r[0])
  {
    if |s| > 0 && IsSpace(s[0]) then TrimStart(s[1..]) else s
  }

  function TrimEnd(s: string): (r: string)
    ensures |r| <= |s|
    ensures |r| > 0 ==> !IsSpace(r[|r| - 1])
  {
    if |s| > 0 && IsSpace(s[|s| - 1]) then TrimEnd(s[..|s| - 1]) else s
  }

  /** `s.strip()` restricted to ASCII whitespace. */
  function Strip(s: string): string {
    TrimEnd(TrimStart(s))
  }

  predicate IsDigit(c: char) {
    '0' <= c <= '9'
  }

  predicate AllDigits(s: string) {
    forall i :: 0 <= i < |s| ==> IsDigit(s[i])
  }

  function DigitValue(c: char): nat
    requires IsDigit(c)
  {
    (c as int) - ('0' as int)
  }

  function DigitChar(d: nat): (c: char)
    requires d < 10
    ensures IsDigit(c) && DigitValue(c) == d
  {
    (('0' as int) + d) as char
  }

  /** The number a run of decimal digits denotes. */
  function DigitsValue(s: string): nat
    requires AllDigits(s)
  {
    if |s| == 0 then 0 else 10 * DigitsValue(s[..|s| - 1]) + DigitValue(s[|s| - 1])
  }

  function Pow10(n: nat): (r: nat)
    ensures r >= 1
  {
    if n == 0 then 1 else 10 * Pow10(n - 1)
  }

  /** The first index at or after `from` that does not hold a digit. */
  function DigitRunEnd(s: string, from: nat): (e: nat)
    requires from <= |s|
    decreases |s| - from
    ensures from <= e <= |s|
    ensures forall k :: from <= k < e ==> IsDigit(s[k])
    ensures e < |s| ==> !IsDigit(s[e])
  {
    if from < |s| && IsDigit(s[from]) then DigitRunEnd(s, from + 1) else from
  }

  /** Two indices that both end the digit run starting at `from` are equal. */
  lemma DigitRunEndUnique(s: string, from: nat, e: nat)
    requires from <= e <= |s|
    requires forall k :: from <= k < e ==> IsDigit(s[k])
    requires e < |s| ==> !IsDigit(s[e])
    ensures DigitRunEnd(s, from) == e
  {
  }

  /** Splits off one optional leading sign: (is it '-', the rest). */
  function SplitSign(s: string): (bool, string) {
    if |s| > 0 && (s[0] == '+' || s[0] == '-') then (s[0] == '-', s[1..]) else (false, s)
  }

  function Signed(negative: bool, n: nat): int {
    if negative then -(n as int) else n
  }

  /** `int(s)` for a string: surrounding whitespace, an optional sign and at
      least one ASCII digit; anything else raises (`None` here). */
  function ParseInt(s: string): Option<int> {
    var sb := SplitSign(Strip(s));
    if |sb.1| > 0 && AllDigits(sb.1) then Some(Signed(sb.0, DigitsValue(sb.1))) else None
  }

  /** `float(s)` for plain decimals: surrounding whitespace, an optional
      sign, digits, and optionally a '.' followed by digits. */
  function ParseDecimal(s: string): Option<real> {
    var sb := SplitSign(Strip(s));
    var body := sb.1;
    var k := DigitRunEnd(body, 0);
    if k == 0 then None
    else if k == |body| then
      Some(if sb.0 then -(DigitsValue(body) as real) else DigitsValue(body) as real)
    else if body[k] == '.' && k + 1 < |body| && AllDigits(body[k + 1..]) then
      var v := DigitsValue(body[..k]) as real
               + (DigitsValue(body[k + 1..]) as real) / (Pow10(|body| - k - 1) as real);
      Some(if sb.0 then -v else v)
    else None
  }

  lemma {:induction false} TrimStartReplace(s: string, a: char, b: char)
    requires !IsSpace(a) && !IsSpace(b)
    ensures TrimStart(ReplaceChar(s, a, b)) == ReplaceChar(TrimStart(s), a, b)
    decreases |s|
  {
    if |s| > 0 && IsSpace(s[0]) {
      assert ReplaceChar(s, a, b)[1..] == ReplaceChar(s[1..], a, b);
      TrimStartReplace(s[1..], a, b);
    }
  }

  lemma {:induction false} TrimEndReplace(s: string, a: char, b: char)
    requires !IsSpace(a) && !IsSpace(b)
    ensures TrimEnd(ReplaceChar(s, a, b)) == ReplaceChar(TrimEnd(s), a, b)
    decreases |s|
  {
    if |s| > 0 && IsSpace(s[|s| - 1]) {
      assert ReplaceChar(s, a, b)[..|s| - 1] == ReplaceChar(s[..|s| - 1], a, b);
      TrimEndReplace(s[..|s| - 1], a, b);
    }
  }

  /** A stripped string that `int()` accepts holds no comma. */
  lemma SignedDigitsHaveNoComma(st: string)
    requires |SplitSign(st).1| > 0 && AllDigits(SplitSign(st).1)
    ensures ReplaceChar(st, ',', '.') == st
  {
    var body := SplitSign(st).1;
    if st[0] == '+' || st[0] == '-' {
      forall i | 1 <= i < |st|
        ensures st[i] != ','
      {
        assert st[i] == body[i - 1];
      }
    } else {
      assert body == st;
    }
  }

  /** Stripping commutes with swapping one non-space character for another. */
  lemma StripReplace(s: string, a: char, b: char)
    requires !IsSpace(a) && !IsSpace(b)
    ensures Strip(ReplaceChar(s, a, b)) == ReplaceChar(Strip(s), a, b)
  {
    TrimStartReplace(s, a, b);
    TrimEndReplace(TrimStart(s), a, b);
  }

  /** `float()` of a string that strips to a signed run of digits is the
      value `int()` gives it. */
  lemma SignedDigitsAsDecimal(t: string)
    requires |SplitSign(Strip(t)).1| > 0 && AllDigits(SplitSign(Strip(t)).1)
    ensures ParseDecimal(t) == Some(ParseInt(t).value as real)
  {
    var sb := SplitSign(Strip(t));
    DigitRunEndUnique(sb.1, 0, |sb.1|);
    assert DigitRunEnd(sb.1, 0) == |sb.1|;
  }

  /** Replacing ',' by '.' in a string that `int()` accepts and handing it
      to `float()` gives back the same integer: the comma/dot re-parse can
      never change the value of an integer literal. */
  lemma IntLiteralReparses(s: string, n: int)
    requires ParseInt(s) == Some(n)
    ensures ParseDecimal(ReplaceChar(s, ',', '.')) == Some(n as real)
  {
    var t := ReplaceChar(s, ',', '.');
    var st := Strip(s);
    StripReplace(s, ',', '.');
    SignedDigitsHaveNoComma(st);
    assert Strip(t) == st;
    SignedDigitsAsDecimal(t);
  }

  // ---------------------------------------------------------------------
  // `str(int)`
  // ---------------------------------------------------------------------

  /** A canonical decimal spelling: digits only, and no leading '0' unless
      the number is 0 itself. */
  predicate Canonical(d: string) {
    |d| > 0 && AllDigits(d) && (d[0] == '0' ==> d == "0")
  }

  /** Decimal digits of a natural number, most significant first. */
  function NatToString(n: nat): (r: string)
    ensures Canonical(r) && DigitsValue(r) == n
  {
    if n < 10 then [DigitChar(n)]
    else
      var hi := NatToString(n / 10);
      var r := hi + [DigitChar(n % 10)];
      assert r[..|r| - 1] == hi;
      assert hi != "0" by { assert DigitsValue("0") == 0; }
      assert r[0] == hi[0];
      r
  }

  /** `str(n)` for an integer: '-' exactly for a negative number, then the
      canonical spelling of its magnitude. */
  function IntToString(n: int): (r: string)
    ensures |r| > 0
    ensures forall i :: 0 <= i < |r| ==> IsDigit(r[i]) || (i == 0 && r[i] == '-')
    ensures r[0] == '-' <==> n < 0
    ensures var d := if n < 0 then r[1..] else r;
            Canonical(d) && DigitsValue(d) == (if n < 0 then -n else n)
  {
    if n < 0 then "-" + NatToString(-n) else NatToString(n)
  }

  /** A run of digits that does not start with '0' denotes at least 1. */
  lemma {:induction false} LeadingDigitPositive(s: string)
    requires |s| > 0 && AllDigits(s) && s[0] != '0'
    ensures DigitsValue(s) >= 1
    decreases |s|
  {
    if |s| > 1 {
      LeadingDigitPositive(s[..|s| - 1]);
    }
  }

  /** Every canonical spelling is the one `NatToString` gives its value. */
  lemma {:induction false} CanonicalSpellingIsUnique(d: string)
    requires Canonical(d)
    ensures NatToString(DigitsValue(d)) == d
    decreases |d|
  {
    var n := DigitsValue(d);
    var c := d[|d| - 1];
    if |d| == 1 {
      assert |d[..|d| - 1]| == 0;
      assert DigitsValue(d[..|d| - 1]) == 0;
      assert n == DigitValue(c);
      assert DigitChar(n) == c;
      assert d == [c];
    } else {
      var hi := d[..|d| - 1];
      assert hi[0] == d[0];
      assert d[0] != '0' by { assert d != "0"; }
      CanonicalSpellingIsUnique(hi);
      LeadingDigitPositive(hi);
      var v := DigitsValue(hi);
      assert n == 10 * v + DigitValue(c);
      assert n / 10 == v && n % 10 == DigitValue(c);
      assert DigitChar(n % 10) == c;
      assert d == hi + [c];
    }
  }

  /** `str()` spells every integer canonically, and every canonical
      spelling, with '-' before any non-zero magnitude, is `str()` of the
      number it denotes. */
  lemma IntToStringIsTheCanonicalSpelling(negative: bool, d: string)
    requires Canonical(d) && !(negative && d == "0")
    ensures IntToString(Signed(negative, DigitsValue(d))) == (if negative then "-" else "") + d
  {
    CanonicalSpellingIsUnique(d);
    if negative {
      assert d[0] != '0';
      LeadingDigitPositive(d);
    }
  }

  /** `int(str(n)) == n`. */
  lemma ParseIntOfIntToString(n: int)
    ensures ParseInt(IntToString(n)) == Some(n)
  {
    var s := IntToString(n);
    assert TrimStart(s) == s;
    assert TrimEnd(s) == s;
    if n < 0 {
      assert SplitSign(s).1 == NatToString(-n);
    }
  }

  // ---------------------------------------------------------------------
  // Ordering
  // ---------------------------------------------------------------------

  /** Python's `a < b` on strings: code-point lexicographic order. */
  predicate LexLess(a: string, b: string)
    decreases |a|
  {
    |b| > 0 && (|a| == 0 || a[0] < b[0] || (a[0] == b[0] && LexLess(a[1..], b[1..])))
  }

  lemma {:induction false} LexLessIrreflexive(a: string)
    ensures !LexLess(a, a)
    decreases |a|
  {
    if |a| > 0 {
      LexLessIrreflexive(a[1..]);
    }
  }

  lemma {:induction false} LexLessTransitive(a: string, b: string, c: string)
    requires LexLess(a, b) && LexLess(b, c)
    ensures LexLess(a, c)
    decreases |a|
  {
    if |a| > 0 && a[0] == b[0] && b[0] == c[0] {
      LexLessTransitive(a[1..], b[1..], c[1..]);
    }
  }

  lemma {:induction false} LexLessTotal(a: string, b: string)
    requires a != b
    ensures LexLess(a, b) || LexLess(b, a)
    decreases |a|
  {
    if |a| > 0 && |b| > 0 && a[0] == b[0] {
      assert a == [a[0]] + a[1..] && b == [b[0]] + b[1..];
      LexLessTotal(a[1..], b[1..]);
    }
  }
}

=== FILE: pyvalues.dfy ===
/** Decoded JSON values as the integration sees them after `resp.json()`,
    together with the Python behaviour it applies to them: truthiness,
    `dict.get`, iteration by a `for` loop, and `str()`. */
module PyValues {
  import opened Wrappers
  import opened PyStrings

  /** A JSON value. Objects keep their key order, as Python dicts do; a
      decoded object never repeats a key. Numbers with a fraction or an
      exponent decode to `JReal`. */
  datatype Json =
    | JNull
    | JBool(b: bool)
    | JInt(i: int)
    | JReal(r: real)
    | JStr(s: string)
    | JList(items: seq<Json>)
    | JObj(fields: seq<(string, Json)>)

  /** The exceptions that abort a refresh, by cause. */
  datatype Cause =
    | NotAMapping        // AttributeError: .get() or .items() on a value that is not a dict
    | NotIterable        // TypeError: a for loop over a number, a boolean or None
    | NotSubscriptable   // TypeError: [0] on a number or a boolean
    | MissingKey         // KeyError: [0] on a dict, whose keys are strings
    | IntConversion      // ValueError or TypeError raised by int()
    | TimeOutOfRange     // ValueError raised by datetime(): hour outside 0..23 or minute outside 0..59
    | TimeOverflow       // OverflowError raised by datetime(): an hour or minute beyond a C int
    | DateOverflow       // OverflowError: the day after 9999-12-31
    | TooManyRangeParts  // ValueError: a key with two "..." unpacked into two names
    | ComponentNotFound  // UpdateFailed: no daily-schedule component
    | RegionNotFound     // UpdateFailed: the region is absent or empty
    | UnknownRegion      // UpdateFailed: the region maps to no known API
    | HttpStatus(code: int)  // UpdateFailed: the schedule endpoint answered with a status other than 200

  /** Python's `bool(v)`. */
  predicate Truthy(v: Json) {
    match v
    case JNull => false
    case JBool(b) => b
    case JInt(i) => i != 0
    case JReal(r) => r != 0.0
    case JStr(s) => |s| > 0
    case JList(items) => |items| > 0
    case JObj(fields) => |fields| > 0
  }

  /** The value stored under `key`, if the object has that key. */
  function Lookup(fields: seq<(string, Json)>, key: string): (r: Option<Json>)
    ensures r.Some? <==> exists i | 0 <= i < |fields| :: fields[i].0 == key
    ensures r.Some? ==> exists i | 0 <= i < |fields| :: fields[i] == (key, r.value)
  {
    if |fields| == 0 then None
    else if fields[0].0 == key then Some(fields[0].1)
    else
      var r := Lookup(fields[1..], key);
      assert forall i | 0 <= i < |fields| - 1 :: fields[1..][i] == fields[i + 1];
      r
  }

  /** `d.get(key)`: a missing key reads as None. */
  function Get(fields: seq<(string, Json)>, key: string): Json {
    Lookup(fields, key).GetOr(JNull)
  }

  /** `d.get(key, default)`: only a missing key reads as `default`; a key
      holding null reads as None. */
  function GetOr(fields: seq<(string, Json)>, key: string, default: Json): Json {
    Lookup(fields, key).GetOr(default)
  }

  /** What a `for` loop over `v` visits: the items of a list, the
      characters of a string, the keys of a dict; None when Python raises
      TypeError. */
  function Iterate(v: Json): (r: Option<seq<Json>>)
    ensures r.Some? <==> (v.JList? || v.JStr? || v.JObj?)
    ensures r.Some? ==> |r.value| == (match v
                                       case JList(items) => |items|
                                       case JStr(s) => |s|
                                       case JObj(fields) => |fields|
                                       case _ => 0)
    ensures v.JList? ==> r == Some(v.items)
    ensures v.JStr? ==> forall i :: 0 <= i < |v.s| ==> r.value[i] == JStr([v.s[i]])
    ensures v.JObj? ==> forall i :: 0 <= i < |v.fields| ==> r.value[i] == JStr(v.fields[i].0)
  {
    match v
    case JList(items) => Some(items)
    case JStr(s) => Some(seq(|s|, i requires 0 <= i < |s| => JStr([s[i]])))
    case JObj(fields) => Some(seq(|fields|, i requires 0 <= i < |fields| => JStr(fields[i].0)))
    case _ => None
  }

  /** Python's `str(v)`. Strings, integers, booleans and None are spelled
      out; the text Python produces for floats, lists and dicts comes from
      `repr`. */
  function PyStr(v: Json, repr: Json -> string): string {
    match v
    case JStr(s) => s
    case JInt(i) => IntToString(i)
    case JBool(b) => if b then "True" else "False"
    case JNull => "None"
    case _ => repr(v)
  }
}

=== FILE: scheduleday.dfy ===
/** `_parse_schedule_day`: flattening one day's group-key -> interval-list
    map of the Yasno JSON into outage events. */
module ScheduleDay {
  import opened Wrappers
  import opened PyValues
  import opened Calendar
  import opened HourValue
  import opened Subsequences

  /** One outage window, as the coordinator stores it. */
  datatype Event = Event(start: Instant, end: Instant, kind: Json, groupKey: string)

  /** The event type used when a record names none. */
  const DefaultKind: Json := JStr("OUTAGE")

  /** An interval record tagged with the group key it is listed under. */
  type Record = (string, Json)

  /** A record whose `start` and `end` are both present and not null. */
  predicate HasBounds(rec: Record) {
    rec.1.JObj? && Get(rec.1.fields, "start") != JNull && Get(rec.1.fields, "end") != JNull
  }

  /** The exceptions parsing a day can raise: `.get()` or `.items()` on a
      value that is not a dict, a `for` over a value that cannot be
      iterated, and the errors of `int()` and `datetime()`. */
  predicate DayError(c: Cause) {
    c == NotAMapping || c == NotIterable || c == IntConversion || c == TimeOutOfRange || c == TimeOverflow
  }

  /** One pass of the inner loop: None for a record the loop skips, or the
      exception `.get()` or the time conversion raises. */
  function BuildEvent(rec: Record, date: Date, toUtc: LocalDateTime -> Instant): (r: Result<Option<Event>, Cause>)
    requires ValidDate(date)
    ensures r.Failure? ==> DayError(r.error)
  {
    match rec.1
    case JObj(fields) =>
      var startValue := Get(fields, "start");
      var endValue := Get(fields, "end");
      if startValue == JNull || endValue == JNull then Success(None)
      else
        var start :- TimeToInstant(date, startValue, toUtc);
        var end :- TimeToInstant(date, endValue, toUtc);
        Success(Some(Event(start, end, GetOr(fields, "type", DefaultKind), rec.0)))
    case _ => Failure(NotAMapping)
  }

  /** `e` is the event the record `rec` describes: same group key, both
      bounds converted on `date`, and the record's type or "OUTAGE". */
  predicate EventFrom(e: Event, rec: Record, date: Date, toUtc: LocalDateTime -> Instant)
    requires ValidDate(date)
  {
    && rec.1.JObj?
    && e.groupKey == rec.0
    && TimeToInstant(date, Get(rec.1.fields, "start"), toUtc) == Success(e.start)
    && TimeToInstant(date, Get(rec.1.fields, "end"), toUtc) == Success(e.end)
    && e.kind == GetOr(rec.1.fields, "type", DefaultKind)
  }

  /** The records that carry both bounds, in order. */
  function Bounded(recs: seq<Record>): (b: seq<Record>)
    ensures |b| <= |recs|
    ensures forall i :: 0 <= i < |b| ==> HasBounds(b[i])
  {
    if |recs| == 0 then []
    else if HasBounds(recs[0]) then [recs[0]] + Bounded(recs[1..])
    else Bounded(recs[1..])
  }

  /** What the skip rule keeps: a subsequence of the records, holding every
      record with both bounds as often as the records do. */
  lemma {:induction false} BoundedKeepsEveryBoundedRecord(recs: seq<Record>)
    ensures IsSubsequence(Bounded(recs), recs)
    ensures forall rec | HasBounds(rec) :: multiset(Bounded(recs))[rec] == multiset(recs)[rec]
    decreases |recs|
  {
    if |recs| > 0 {
      BoundedKeepsEveryBoundedRecord(recs[1..]);
      var rest := Bounded(recs[1..]);
      assert recs == [recs[0]] + recs[1..];
      if HasBounds(recs[0]) {
        var b := [recs[0]] + rest;
        assert Bounded(recs) == b;
        assert b[1..] == rest;
      }
    }
  }

  /** `Bounded` is the only subsequence of the records that holds just the
      records with both bounds, each as often as the records do: the skip
      rule keeps every such record and nothing else, in order. */
  lemma {:induction false} BoundedIsUnique(recs: seq<Record>, b: seq<Record>)
    requires IsSubsequence(b, recs)
    requires forall i :: 0 <= i < |b| ==> HasBounds(b[i])
    requires forall rec | HasBounds(rec) :: multiset(b)[rec] == multiset(recs)[rec]
    ensures b == Bounded(recs)
    decreases |recs|
  {
    if |recs| > 0 {
      var x := recs[0];
      var t := recs[1..];
      assert recs == [x] + t;
      if HasBounds(x) {
        assert multiset(b)[x] > 0;
        assert |b| > 0;
        SubsequenceCounts(b, t);
        assert !IsSubsequence(b, t) by {
          assert multiset(b)[x] > multiset(t)[x];
        }
        assert b[0] == x && IsSubsequence(b[1..], t);
        assert b == [x] + b[1..];
        BoundedIsUnique(t, b[1..]);
      } else {
        assert IsSubsequence(b, t) by {
          if |b| > 0 {
            assert b[0] != x;
          }
        }
        BoundedIsUnique(t, b);
      }
    }
  }

  /** Every record of the run passes `BuildEvent` without raising. */
  predicate AllBuild(recs: seq<Record>, date: Date, toUtc: LocalDateTime -> Instant)
    requires ValidDate(date)
  {
    |recs| == 0 || (BuildEvent(recs[0], date, toUtc).Success? && AllBuild(recs[1..], date, toUtc))
  }

  /** `evs` are, one for one and in order, the events the records `recs`
      describe. */
  predicate EventsFrom(evs: seq<Event>, recs: seq<Record>, date: Date, toUtc: LocalDateTime -> Instant)
    requires ValidDate(date)
  {
    |evs| == |recs| && (|evs| == 0 || (EventFrom(evs[0], recs[0], date, toUtc) && EventsFrom(evs[1..], recs[1..], date, toUtc)))
  }

  lemma {:induction false} AllBuildIndex(recs: seq<Record>, date: Date, toUtc: LocalDateTime -> Instant)
    requires ValidDate(date)
    ensures AllBuild(recs, date, toUtc) <==> forall i :: 0 <= i < |recs| ==> BuildEvent(recs[i], date, toUtc).Success?
    decreases |recs|
  {
    if |recs| > 0 {
      AllBuildIndex(recs[1..], date, toUtc);
      assert forall i :: 0 < i < |recs| ==> recs[i] == recs[1..][i - 1];
    }
  }

  lemma {:induction false} EventsFromIndex(evs: seq<Event>, recs: seq<Record>, date: Date, toUtc: LocalDateTime -> Instant)
    requires ValidDate(date)
    requires EventsFrom(evs, recs, date, toUtc)
    ensures |evs| == |recs| && forall i :: 0 <= i < |evs| ==> EventFrom(evs[i], recs[i], date, toUtc)
    decreases |evs|
  {
    if |evs| > 0 {
      EventsFromIndex(evs[1..], recs[1..], date, toUtc);
      assert forall i :: 0 < i < |evs| ==> evs[i] == evs[1..][i - 1] && recs[i] == recs[1..][i - 1];
    }
  }

  /** The inner loop over a run of records: a record that is not a dict,
      or a bound that does not convert, aborts; otherwise each record with
      both bounds contributes its event, in record order. */
  function ParseRecords(recs: seq<Record>, date: Date, toUtc: LocalDateTime -> Instant): (r: Result<seq<Event>, Cause>)
    requires ValidDate(date)
    ensures r.Success? <==> AllBuild(recs, date, toUtc)
    ensures r.Failure? ==> DayError(r.error)
  {
    if |recs| == 0 then Success([])
    else
      var first :- BuildEvent(recs[0], date, toUtc);
      var rest :- ParseRecords(recs[1..], date, toUtc);
      Success(if first.Some? then [first.value] + rest else rest)
  }

  /** A run of records parses to one event per record with both bounds,
      in record order, each the event its record describes. */
  lemma {:induction false} ParseRecordsEvents(recs: seq<Record>, date: Date, toUtc: LocalDateTime -> Instant)
    requires ValidDate(date)
    requires ParseRecords(recs, date, toUtc).Success?
    ensures EventsFrom(ParseRecords(recs, date, toUtc).value, Bounded(recs), date, toUtc)
    decreases |recs|
  {
    if |recs| > 0 {
      ParseRecordsEvents(recs[1..], date, toUtc);
      var first := BuildEvent(recs[0], date, toUtc).value;
      if first.Some? {
        var evs := ParseRecords(recs, date, toUtc).value;
        assert evs[1..] == ParseRecords(recs[1..], date, toUtc).value;
      }
    }
  }

  /** The records of one group's interval list, tagged with its key. */
  function Tag(key: string, items: seq<Json>): (recs: seq<Record>)
    ensures |recs| == |items|
    ensures forall i :: 0 <= i < |items| ==> recs[i] == (key, items[i])
  {
    seq(|items|, i requires 0 <= i < |items| => (key, items[i]))
  }

  /** The outer loop over `groups.items()`: each group's list is iterated
      and its records parsed before the next group is looked at. */
  function ParseGroups(groups: seq<(string, Json)>, date: Date, toUtc: LocalDateTime -> Instant): (r: Result<seq<Event>, Cause>)
    requires ValidDate(date)
    ensures r.Failure? ==> DayError(r.error)
  {
    if |groups| == 0 then Success([])
    else
      match Iterate(groups[0].1)
      case None => Failure(NotIterable)
      case Some(items) =>
        var evs :- ParseRecords(Tag(groups[0].0, items), date, toUtc);
        var rest :- ParseGroups(groups[1..], date, toUtc);
        Success(evs + rest)
  }

  /** `day_info.get("groups", {})`, which must be a dict. */
  function DayGroups(dayInfo: Json): (r: Result<seq<(string, Json)>, Cause>)
    ensures r.Failure? ==> r.error == NotAMapping
  {
    match dayInfo
    case JObj(fields) =>
      (match Lookup(fields, "groups")
       case None => Success([])
       case Some(JObj(groups)) => Success(groups)
       case Some(_) => Failure(NotAMapping))
    case _ => Failure(NotAMapping)
  }

  /** `_parse_schedule_day(day_info, date)`. */
  function ParseScheduleDay(dayInfo: Json, date: Date, toUtc: LocalDateTime -> Instant): (r: Result<seq<Event>, Cause>)
    requires ValidDate(date)
    ensures r.Failure? ==> DayError(r.error)
    ensures !dayInfo.JObj? ==> r == Failure(NotAMapping)
  {
    var groups :- DayGroups(dayInfo);
    ParseGroups(groups, date, toUtc)
  }

  // ---------------------------------------------------------------------
  // The day as one flat list of records
  // ---------------------------------------------------------------------

  /** Every record of the day in group-then-record order, or None when some
      group's interval list cannot be iterated. */
  function DayRecords(groups: seq<(string, Json)>): Option<seq<Record>> {
    if |groups| == 0 then Some([])
    else
      match Iterate(groups[0].1)
      case None => None
      case Some(items) =>
        match DayRecords(groups[1..])
        case None => None
        case Some(rest) => Some(Tag(groups[0].0, items) + rest)
  }

  /** Parsing `a + b` succeeds when parsing `a` and parsing `b` do. */
  ghost predicate AppendSucceeds(a: seq<Record>, b: seq<Record>, date: Date, toUtc: LocalDateTime -> Instant)
    requires ValidDate(date)
  {
    ParseRecords(a + b, date, toUtc).Success?
    <==> ParseRecords(a, date, toUtc).Success? && ParseRecords(b, date, toUtc).Success?
  }

  /** ... and then yields the events of `a` followed by those of `b`. */
  ghost predicate AppendConcatenates(a: seq<Record>, b: seq<Record>, date: Date, toUtc: LocalDateTime -> Instant)
    requires ValidDate(date)
  {
    ParseRecords(a + b, date, toUtc).Success? && ParseRecords(a, date, toUtc).Success?
    && ParseRecords(b, date, toUtc).Success? ==>
      ParseRecords(a + b, date, toUtc).value == ParseRecords(a, date, toUtc).value + ParseRecords(b, date, toUtc).value
  }

  lemma AppendSucceedsStep(a: seq<Record>, b: seq<Record>, date: Date, toUtc: LocalDateTime -> Instant)
    requires ValidDate(date)
    requires |a| > 0
    requires AppendSucceeds(a[1..], b, date, toUtc)
    ensures AppendSucceeds(a, b, date, toUtc)
  {
    var ab := a + b;
    assert ab[1..] == a[1..] + b;
    assert ab[0] == a[0];
  }

  lemma AppendConcatenatesStep(a: seq<Record>, b: seq<Record>, date: Date, toUtc: LocalDateTime -> Instant)
    requires ValidDate(date)
    requires |a| > 0
    requires AppendConcatenates(a[1..], b, date, toUtc)
    ensures AppendConcatenates(a, b, date, toUtc)
  {
    var ab := a + b;
    assert ab[1..] == a[1..] + b;
    assert ab[0] == a[0];
    if ParseRecords(ab, date, toUtc).Success? && ParseRecords(a, date, toUtc).Success?
       && ParseRecords(b, date, toUtc).Success? {
      var first := BuildEvent(a[0], date, toUtc).value;
      var head := if first.Some? then [first.value] else [];
      var pa := ParseRecords(a[1..], date, toUtc);
      var pab := ParseRecords(a[1..] + b, date, toUtc);
      var pb := ParseRecords(b, date, toUtc).value;
      assert pa.Success? && pab.Success?;
      assert pab.value == pa.value + pb;
      assert ParseRecords(ab, date, toUtc).value == head + pab.value;
      assert ParseRecords(a, date, toUtc).value == head + pa.value;
      assert head + (pa.value + pb) == (head + pa.value) + pb;
    }
  }

  /** Parsing two runs of records one after the other. */
  lemma {:induction false} ParseRecordsAppend(a: seq<Record>, b: seq<Record>, date: Date, toUtc: LocalDateTime -> Instant)
    requires ValidDate(date)
    ensures AppendSucceeds(a, b, date, toUtc) && AppendConcatenates(a, b, date, toUtc)
    decreases |a|
  {
    if |a| == 0 {
      assert a + b == b;
    } else {
      ParseRecordsAppend(a[1..], b, date, toUtc);
      AppendSucceedsStep(a, b, date, toUtc);
      AppendConcatenatesStep(a, b, date, toUtc);
    }
  }

  /** The nested loops succeed exactly when every group can be iterated and
      the flat run of all records parses, and then give the same events. */
  lemma {:induction false} ParseGroupsIsFlat(groups: seq<(string, Json)>, date: Date, toUtc: LocalDateTime -> Instant)
    requires ValidDate(date)
    ensures ParseGroups(groups, date, toUtc).Success?
            <==> DayRecords(groups).Some? && ParseRecords(DayRecords(groups).value, date, toUtc).Success?
    ensures ParseGroups(groups, date, toUtc).Success? ==>
              ParseGroups(groups, date, toUtc).value == ParseRecords(DayRecords(groups).value, date, toUtc).value
    decreases |groups|
  {
    if |groups| > 0 {
      ParseGroupsIsFlat(groups[1..], date, toUtc);
      match Iterate(groups[0].1)
      case None =>
      case Some(items) =>
        match DayRecords(groups[1..])
        case None =>
        case Some(rest) =>
          ParseRecordsAppend(Tag(groups[0].0, items), rest, date, toUtc);
    }
  }

  /** What a successful `_parse_schedule_day` returns: exactly one event per
      record with both bounds, in group-then-record order, each carrying its
      record's group key, converted bounds, and type (default "OUTAGE"). */
  lemma DayEventsFollowRecords(dayInfo: Json, date: Date, toUtc: LocalDateTime -> Instant)
    requires ValidDate(date)
    requires ParseScheduleDay(dayInfo, date, toUtc).Success?
    ensures DayGroups(dayInfo).Success? && DayRecords(DayGroups(dayInfo).value).Some?
    ensures var evs := ParseScheduleDay(dayInfo, date, toUtc).value;
            var recs := Bounded(DayRecords(DayGroups(dayInfo).value).value);
            |evs| == |recs| && forall i :: 0 <= i < |evs| ==> EventFrom(evs[i], recs[i], date, toUtc)
  {
    var groups := DayGroups(dayInfo).value;
    ParseGroupsIsFlat(groups, date, toUtc);
    var recs := DayRecords(groups).value;
    ParseRecordsEvents(recs, date, toUtc);
    EventsFromIndex(ParseRecords(recs, date, toUtc).value, Bounded(recs), date, toUtc);
  }

  /** When `_parse_schedule_day` raises: `day_info` or its `groups` is not
      a dict, a group's list is not iterable, a record is not a dict, or a
      bound of a complete record does not convert. */
  lemma DayFailsExactly(dayInfo: Json, date: Date, toUtc: LocalDateTime -> Instant)
    requires ValidDate(date)
    ensures ParseScheduleDay(dayInfo, date, toUtc).Success?
            <==> && DayGroups(dayInfo).Success?
                 && DayRecords(DayGroups(dayInfo).value).Some?
                 && var recs := DayRecords(DayGroups(dayInfo).value).value;
                    forall i :: 0 <= i < |recs| ==> BuildEvent(recs[i], date, toUtc).Success?
  {
    if DayGroups(dayInfo).Success? {
      var groups := DayGroups(dayInfo).value;
      ParseGroupsIsFlat(groups, date, toUtc);
      if DayRecords(groups).Some? {
        AllBuildIndex(DayRecords(groups).value, date, toUtc);
      }
    }
  }

  /** A record without `end` produces no event and no error. */
  lemma MissingEndIsSkipped(date: Date, toUtc: LocalDateTime -> Instant)
    requires ValidDate(date)
    ensures ParseScheduleDay(JObj([("groups", JObj([("1.1", JList([JObj([("start", JInt(8))])]))]))]), date, toUtc)
            == Success([])
  {
    var item := JObj([("start", JInt(8))]);
    var recs := [("1.1", item)];
    var groups := [("1.1", JList([item]))];
    assert DayGroups(JObj([("groups", JObj(groups))])) == Success(groups);
    assert BuildEvent(recs[0], date, toUtc) == Success(None);
    assert recs[1..] == [];
    assert ParseRecords(recs, date, toUtc) == Success([]);
    assert Tag("1.1", [item]) == recs;
    assert groups[1..] == [];
    assert ParseGroups(groups[1..], date, toUtc) == Success([]);
    assert Iterate(groups[0].1) == Some([item]);
    var none: seq<Event> := [];
    assert none + none == none;
    assert ParseGroups(groups, date, toUtc) == Success(none);
  }

  /** A record without `type` is an OUTAGE event under its group key. */
  lemma DefaultTypeIsOutage(date: Date, toUtc: LocalDateTime -> Instant)
    requires ValidDate(date)
    ensures ParseScheduleDay(JObj([("groups", JObj([("2.1", JList([JObj([("start", JInt(8)), ("end", JReal(9.5))])]))]))]), date, toUtc)
            == Success([Event(toUtc(LocalDateTime(date, 8, 0)), toUtc(LocalDateTime(date, 9, 30)), JStr("OUTAGE"), "2.1")])
  {
    var item := JObj([("start", JInt(8)), ("end", JReal(9.5))]);
    var recs := [("2.1", item)];
    var groups := [("2.1", JList([item]))];
    var e := Event(toUtc(LocalDateTime(date, 8, 0)), toUtc(LocalDateTime(date, 9, 30)), JStr("OUTAGE"), "2.1");
    assert DayGroups(JObj([("groups", JObj(groups))])) == Success(groups);
    assert Get(item.fields, "start") == JInt(8);
    assert Get(item.fields, "end") == JReal(9.5);
    assert GetOr(item.fields, "type", DefaultKind) == DefaultKind;
    HalfHourFloat(9);
    assert JReal(9.5) == JReal(9 as real + 0.5);
    assert TimeToInstant(date, JInt(8), toUtc) == Success(toUtc(LocalDateTime(date, 8, 0)));
    assert TimeToInstant(date, JReal(9.5), toUtc) == Success(toUtc(LocalDateTime(date, 9, 30)));
    assert BuildEvent(recs[0], date, toUtc) == Success(Some(e));
    assert recs[1..] == [];
    assert ParseRecords(recs[1..], date, toUtc) == Success([]);
    assert [e] + [] == [e];
    assert ParseRecords(recs, date, toUtc) == Success([e]);
    assert Tag("2.1", [item]) == recs;
    assert groups[1..] == [];
    assert ParseGroups(groups[1..], date, toUtc) == Success([]);
    assert Iterate(groups[0].1) == Some([item]);
    assert ParseGroups(groups, date, toUtc) == ParseRecords(recs, date, toUtc);
  }
}

=== FILE: subsequences.dfy ===
/** Subsequences: a sequence with some elements left out, order kept. */
module Subsequences {
  /** `a` is `b` with some elements left out, order kept. */
  predicate IsSubsequence<T(==)>(a: seq<T>, b: seq<T>)
    decreases |b|
  {
    |a| == 0 || (|b| > 0 && ((a[0] == b[0] && IsSubsequence(a[1..], b[1..])) || IsSubsequence(a, b[1..])))
  }

  /** A subsequence takes each element no more often than it occurs. */
  lemma {:induction false} SubsequenceMultiset<T>(a: seq<T>, b: seq<T>)
    requires IsSubsequence(a, b)
    ensures multiset(a) <= multiset(b)
    decreases |b|
  {
    if |a| > 0 {
      assert b == [b[0]] + b[1..];
      if a[0] == b[0] && IsSubsequence(a[1..], b[1..]) {
        SubsequenceMultiset(a[1..], b[1..]);
        assert a == [a[0]] + a[1..];
      } else {
        SubsequenceMultiset(a, b[1..]);
      }
    }
  }

  /** The same fact for any two sequences, as an implication. */
  lemma SubsequenceCounts<T>(a: seq<T>, b: seq<T>)
    ensures IsSubsequence(a, b) ==> multiset(a) <= multiset(b)
  {
    if IsSubsequence(a, b) {
      SubsequenceMultiset(a, b);
    }
  }
}

=== FILE: wrappers.dfy ===
/** Failure-compatible Option and Result types, usable with `:-`. */
module Wrappers {

  /** A value that may be absent (Python's `None`). */
  datatype Option<+T> = None | Some(value: T) {

    predicate IsFailure() {
      None?
    }

    function PropagateFailure<U>(): Option<U>
      requires None?
    {
      None
    }

    function Extract(): T
      requires Some?
    {
      value
    }

    /** The wrapped value, or `default` when absent. */
    function GetOr(default: T): T {
      if Some? then value else default
    }

    /** The wrapped value as a success, or `error` when absent. */
    function ToResult<E>(error: E): Result<T, E> {
      if Some? then Success(value) else Failure(error)
    }
  }

  /** Either a computed value or the exception that aborted the computation. */
  datatype Result<+T, +E> = Success(value: T) | Failure(error: E) {

    predicate IsFailure() {
      Failure?
    }

    function PropagateFailure<U>(): Result<U, E>
      requires Failure?
    {
      Failure(error)
    }

    function Extract(): T
      requires Success?
    {
      value
    }
  }
}
